=== FILE: README.md ===
# LoRa metadata and image link, modelled in Dafny

The system moves a baby-monitor log over a serial LoRa link. The sender
(`sendimgcvfinal.py`) reads the monitoring table row by row. For each row it
writes a metadata frame `"csv," + fields joined by ","`. When the row's image
is eligible — not "none", not already in the sent-image ledger, present in the
image folder — it writes the token frame `image_name`, then the file name,
then the Base64 text of the file in chunks of 198 characters. After the last
chunk it appends the name to the ledger file. Every frame ends with the
two-character terminator `.?`.

The receiver (`rcvfinal.py`) adds each read to a buffer. When the buffer holds
a terminator, it takes the stripped text before the first one as the frame and
classifies it in this order:
- a `csv,` row is appended to the received log;
- `image_name` commits the pending image, then waits up to three seconds for a
  file name;
- a short name ending in `.jpg` commits the pending image and becomes the
  current name;
- anything else is image text and is accumulated.

A commit decodes the accumulated text and saves it under the current name. A
last commit happens when the session ends.

The model is split into these modules:
- `Common`: option, result and byte types.
- `Text`: Python's `strip`, `lower`, `join`, and the terminator split.
- `Chunking`: the 198-character slicing loop.
- `Ledger`: the sent-image file, with Python's `splitlines`.
- `Sender`: one run of the sender as a list of effects (frame writes and ledger
  marks) plus how it ended.
- `Receiver`: the receiver as a pure state machine over a list of link events.
  A link event is a read's text, or a three-second silence.
- `Protocol`: the two joined by an assumed delivery.

Serial I/O, clocks, the Base64 codec and the image store are parameters.

Three behaviours of the code matter for what the model can promise:
- The receiver classifies a `csv,` frame before testing for `image_name`. The
  two tests cannot both hold, so the order only matters against the `.jpg`
  test (`Receiver.MetadataBeatsFileName`).
- When the file-name wait times out, the receiver keeps the previous image
  name. It does not unset it (`Receiver.TimedOutWaitKeepsName`).
- Each read extracts at most one frame. For every frame other than the
  `image_name` token, whatever follows the first terminator in the buffer is
  discarded (`Receiver.FrameTailIsDropped`, `Receiver.SecondFrameInReadIsLost`).
  The token is handled differently. What followed it stays in the buffer for
  the file-name wait (rcvfinal.py:63-65). The wait takes the name from it as
  soon as any further read arrives in time, and that read's own text is then
  discarded at rcvfinal.py:96 (`Receiver.TokenTailFeedsWait`). If the wait
  hears nothing, the buffer is discarded too, unless the `continue` at
  rcvfinal.py:71-73 runs. That happens whenever the image name is still unset
  or blank after the wait, whether the wait timed out or received a name that
  strips to nothing, and it keeps the buffered text
  (`Receiver.TimedOutWaitKeepsName`, `Receiver.ArrivedNameIsStored`,
  `Receiver.UnnamedCoalescedAnnouncementDropsRead`). The round trip therefore
  holds for frames split across reads (`Receiver.FragmentedFrame`). It does
  not hold for frames coalesced into one read.

## Model

| member | source | states |
|---|---|---|
| Text.Strip | rcvfinal.py:33 | The result is no longer than the input and has no surrounding whitespace, with whitespace as Python's `str.isspace` defines it. Text that is already unpadded is returned unchanged. |
| Text.StripAfterPrefix | rcvfinal.py:33 | Stripping text that begins with an unpadded prefix such as `csv,` keeps the prefix and only trims the end. |
| Text.Lower | sendimgcvfinal.py:63 | Lower-casing keeps the length, maps each ASCII capital to its lower-case letter and keeps every other character. |
| Text.SplitFrame | rcvfinal.py:31-32 | No split exactly when the buffer contains no `.?`. Otherwise buffer == head + `.?` + tail, and the head contains no terminator, so the split is at the first occurrence. |
| Text.SplitFrameOfFrame | rcvfinal.py:31-32 | A terminator-free payload followed by `.?`, as the sender writes it, splits back into exactly that payload and the rest. |
| Text.Base64HasNoSentinel | sendimgcvfinal.py:85 | Text in the Base64 alphabet of section 4 of RFC 4648 never contains the terminator. |
| Chunking.Chunks | sendimgcvfinal.py:86-87 | The chunks concatenate back to the message. Every chunk is non-empty and at most 198 characters. Every chunk except the last is exactly 198 characters. |
| Chunking.ChunkCount | sendimgcvfinal.py:86 | The number of chunks is the length divided by 198, rounded up. |
| Chunking.ChunkIsRangeSlice | sendimgcvfinal.py:86-87 | Chunk k is the slice `msg[k*198 : min(k*198+198, len(msg))]` the loop takes. |
| Chunking.ExactMultipleOfChunkSize | sendimgcvfinal.py:86-87 | A message of exactly n×198 characters gives exactly n chunks, each of full size. |
| Chunking.ChunksOfBase64 | sendimgcvfinal.py:85-87 | Every chunk of Base64 text is Base64 text. |
| Ledger.SplitLines | sendimgcvfinal.py:19 | No line produced by `splitlines` contains any of Python's line-break characters. |
| Ledger.Load | sendimgcvfinal.py:15-20 | A missing ledger file loads as the empty set. No loaded name contains a line break. |
| Ledger.Append | sendimgcvfinal.py:22-25 | After the append the file exists, begins with its old contents and ends with a newline. |
| Ledger.SplitLinesAppend | sendimgcvfinal.py:19 | When the first text ends in a newline, `splitlines` of the concatenation is the concatenation of the two splits. |
| Ledger.AppendThenLoad | sendimgcvfinal.py:15-25 | Loading after appending a break-free name gives the old set plus that name, and the file stays newline-terminated. |
| Ledger.AppendAllThenLoad | sendimgcvfinal.py:15-25 | Loading after a run's appends gives the old set plus every appended name. |
| Ledger.BrokenNameIsLost | sendimgcvfinal.py:15-25 | A name that holds any line break, appended to any ledger file, is not in the set loaded back. |
| Ledger.BrokenNameLines | sendimgcvfinal.py:19-25 | The name `a\rb` is read back as the two unrelated names `a` and `b`. |
| Sender.ChunkWrites | sendimgcvfinal.py:86-88 | There is one write per chunk, and write k carries chunk k followed by the terminator. |
| Sender.SendRow | sendimgcvfinal.py:53-93 | A row that does not have four fields aborts the run with that width and writes nothing. A four-field row writes its metadata frame first. An ineligible row writes exactly that frame and nothing else. |
| Sender.TableRows | sendimgcvfinal.py:27-39 | Reading the rows fails, with the empty-table abort, exactly when the table file exists but is empty. A missing file gives no rows. Otherwise the header followed by the rows is the whole table. |
| Sender.RunSender | sendimgcvfinal.py:41-95 | The ledger left behind is the old ledger with every name the run marked appended in order. An empty table aborts before any frame is written and leaves the ledger untouched. |
| Sender.ChunkWritesMarkNothing | sendimgcvfinal.py:86-90 | Sending chunks marks nothing in the ledger. |
| Sender.ChunkFramesCarryText | sendimgcvfinal.py:86-88 | The frames of the chunk writes are the chunks, each framed. |
| Sender.EligibleRowEffects | sendimgcvfinal.py:57-92 | For an eligible readable image, the frames are the metadata frame, `image_name`, the name and the chunk frames. The row marks only its own name, as its last effect. Nothing is marked before the last chunk is written. |
| Sender.RowMarksIffSent | sendimgcvfinal.py:63-92 | A row marks its name exactly when it has four fields, the image is eligible and the image is a readable file. Otherwise it marks nothing. |
| Sender.SendRowsAppend | sendimgcvfinal.py:48-93 | The rows after a completed stretch are judged against the same ledger snapshot, as if they ran alone. Names sent in this run are not added to the snapshot. |
| Sender.SendRowsCons | sendimgcvfinal.py:53-93 | After a completed row, the loop continues with the rest under the same snapshot. |
| Sender.SentTwice | sendimgcvfinal.py:48-93 | Two copies of a completed row produce that row's effects twice. |
| Sender.RepeatedRowIsResent | sendimgcvfinal.py:48-92 | Two rows naming the same eligible image in one run send and mark it twice. |
| Sender.LedgerNamesNotResent | sendimgcvfinal.py:63-71 | Every name a run marks was absent from the loaded ledger and present in the image store. |
| Sender.CompletedRunMarksEveryEligible | sendimgcvfinal.py:53-92 | A run that does not abort had only four-field rows and marks every eligible image, each a readable file. |
| Sender.MetadataOnlyRun | sendimgcvfinal.py:53-71 | When no row is eligible, the run writes exactly one metadata frame per row and marks nothing. |
| Sender.HeaderIsNeverSent | sendimgcvfinal.py:27-51 | The header row is never sent. A table holding only its header, or no table file, sends nothing and leaves the ledger alone. |
| Sender.ReplaySendsOnlyMetadata | sendimgcvfinal.py:41-95 | A second run on the ledger the first run left sends no image and marks nothing. It leaves the ledger unchanged and sends every metadata row again. This holds when the ledger is missing, empty or ends in a newline, the first run did not abort, and no image name in the store holds a line break. |
| Ledger.UnterminatedLineMerges | sendimgcvfinal.py:15-25 | When the ledger's last line has no newline, the next name appended is glued onto that line, so the name is not read back. |
| Sender.OneRowRun | sendimgcvfinal.py:41-95 | A run over a header and one complete row whose image, if stored, is a regular file completes. It marks the image exactly when the image is eligible against the ledger. |
| Sender.UnterminatedLedgerResends | sendimgcvfinal.py:15-25 | With a ledger whose one line has no newline, an image the first run sends and marks is sent and marked again by the second run. |
| Sender.BrokenNameIsResent | sendimgcvfinal.py:15-25 | Whatever ledger a run leaves, an image whose name holds a line break, that exists and is not "none", is still eligible on the next run, which sends it and marks it again. |
| Receiver.Flush | rcvfinal.py:46-56 | Without a truthy name and non-empty text, the commit changes nothing. With both, the text is cleared. The image is recorded under the current name exactly when decoding succeeds. Buffer, name and rows are never touched. |
| Receiver.FlushWithoutName | rcvfinal.py:46 | With no truthy name held, the commit changes nothing. |
| Receiver.FlushTwiceIsOnce | rcvfinal.py:46-56 | A second commit right after a first changes nothing. |
| Receiver.Await | rcvfinal.py:58-69 | The wait consumes no more events than it is given. A timeout that starts without a terminator in the buffer leaves none. |
| Receiver.Dispatch | rcvfinal.py:36-96 | After a frame is handled, the buffer is empty whenever an image name is held. Buffered text survives only through the `continue` at rcvfinal.py:71-73, which runs when the name is unset or blank after the wait. |
| Receiver.Step | rcvfinal.py:25-98 | Each iteration of the loop consumes at least one link event. |
| Receiver.Session | rcvfinal.py:25-113 | When the session ends, no image is left uncommitted. |
| Receiver.ReadWithoutFrame | rcvfinal.py:27-31 | A read that completes no frame only grows the buffer. |
| Receiver.ReadWithFrame | rcvfinal.py:27-33 | A read that completes a frame handles the stripped text before the first terminator, with the rest of the buffer kept for the handler. |
| Receiver.FrameAlone | rcvfinal.py:27-33 | A frame that arrives alone into an empty buffer is handled with the buffer empty. |
| Receiver.FrameTailIsDropped | rcvfinal.py:31-96 | For any frame other than the `image_name` token, the handling is as if the read ended at the terminator. Whatever followed it is discarded and the buffer ends empty. |
| Receiver.TokenTailFeedsWait | rcvfinal.py:31-96 | With an empty buffer, a read bringing the token followed by text that holds a complete frame, then any read within the wait, commits the pending image and takes that frame's stripped text as the name. The second read's text is discarded, nothing is accumulated and the buffer ends empty. |
| Receiver.TokenRead | rcvfinal.py:31-42 | With an empty buffer, a read that completes the token hands the token's handling whatever followed it, as the buffer for the wait. |
| Receiver.WaitTakesBufferedName | rcvfinal.py:58-73 | A complete frame already in the buffer when the token is handled is taken as the name by the wait's first read, after the commit, and the buffer is then cleared. |
| Receiver.WaitReadsBufferedName | rcvfinal.py:58-68 | The wait's first read completes at a frame already in the buffer: the name is its stripped text, and the rest of the buffer and the read are kept. |
| Receiver.DispatchIgnoresBuffer | rcvfinal.py:36-96 | For every frame but the token, what the buffer held does not matter: the buffer ends empty and no further event is consumed. |
| Receiver.RunAfterFrame | rcvfinal.py:25-98 | The session after a frame-completing read continues from the state that handling the frame leaves. |
| Receiver.FragmentedFrame | rcvfinal.py:25-33 | A frame split over any number of reads is handled as if it arrived in one read. |
| Receiver.SecondFrameInReadIsLost | rcvfinal.py:31-96 | From the initial state, when a metadata frame whose row holds no dot and more text arrive in one read, only the row is kept. The text after it is lost. |
| Receiver.MetadataFrameAppendsRow | rcvfinal.py:36-40 | A `csv,` frame appends the text after the prefix as one row and changes nothing else. |
| Receiver.MetadataBeatsFileName | rcvfinal.py:36-75 | `csv,x.jpg` is recorded as a row and does not change the image name. |
| Receiver.FileNameFrame | rcvfinal.py:75-96 | A short frame ending in `.jpg` commits the pending image and becomes the current name. The buffer is cleared and no further event is consumed. |
| Receiver.DataFrameAccumulates | rcvfinal.py:92-94 | Any other frame is appended to the image text and changes nothing else. |
| Receiver.TimedOutWaitKeepsName | rcvfinal.py:42-73 | After a timed-out wait, the name is the one held before the token, the pending image has been committed and its text cleared, and the rows are unchanged. The events left are those after the wait. With a name, the buffer is cleared. Without one, the buffer keeps what the wait read. |
| Receiver.ArrivedNameIsStored | rcvfinal.py:42-73 | A name that arrives within the wait becomes the current name, even a blank one, after the pending image has been committed under the old name. The rows are unchanged. A non-blank name clears the buffer. A blank name takes the `continue` and keeps what the wait left buffered. |
| Receiver.CoalescedAnnouncementLosesName | rcvfinal.py:42-73 | When the token and the text after it share a read and a silence follows, the receiver only commits. Everything after the token is discarded, and the old name stays current. |
| Receiver.UnnamedCoalescedAnnouncementDropsRead | rcvfinal.py:31-96 | With no name held, when the token shares a read with text holding a short `.jpg` frame and a silence follows, that text stays in the buffer. The next read completes the frame: the name is set, that read's own text is discarded and nothing is accumulated. |
| Receiver.UnnamedTokenTimesOut | rcvfinal.py:42-73 | With no name held, the token followed by a silence leaves what followed the token in the buffer and changes nothing else. |
| Receiver.BufferedNameFrame | rcvfinal.py:31-96 | A short `.jpg` frame waiting in the buffer is completed by the next read, whose own text is then discarded. |
| Receiver.ReadCompletesBufferedFrame | rcvfinal.py:27-33 | A read that completes a frame begun in the buffer handles that frame, keeping the rest of the buffer and the read for the handler. |
| Protocol.Base64ChunkIsData | rcvfinal.py:92-94 | A non-empty Base64 chunk has no terminator and no padding. It is neither a row, nor the token, nor a file name, so it is accumulated as image text. |
| Protocol.ChunksReassemble | rcvfinal.py:92-94 | Chunk frames arriving one per read append exactly their concatenation to the image text. |
| Protocol.MetadataDelivered | sendimgcvfinal.py:57-58 | A delivered metadata frame is recorded as the row's fields joined by commas, with trailing whitespace stripped. |
| Protocol.AnnouncementDelivered | sendimgcvfinal.py:74-76 | The token and the name, delivered in separate reads, commit the pending image and make the stripped name current. |
| Protocol.RowEvents | sendimgcvfinal.py:53-90 | A well-formed row never aborts. Its delivered reads are its metadata frame, followed by the token, the name and the chunk frames when the image is eligible. |
| Protocol.RowNeverAborts | sendimgcvfinal.py:53-93 | A well-formed row never aborts the run. |
| Protocol.CycleDelivered | rcvfinal.py:42-94 | Token, name and chunks delivered one per read commit the previous image. They leave the new name current and the chunks' concatenation as its text. |
| Protocol.ImageDelivered | sendimgcvfinal.py:74-90 | The same holds for the chunks of a whole Base64 message, whose text is then the message. |
| Protocol.RowDelivered | sendimgcvfinal.py:53-93 | Delivering one row's frames takes a ready receiver to the state `Absorb` describes, which is ready again. |
| Protocol.RowsDelivered | sendimgcvfinal.py:53-93 | Delivering a whole run's frames takes a ready receiver to the state `AbsorbAll` describes. |
| Protocol.AbsorbOutputs | rcvfinal.py:36-94 | Absorbing one row adds its row text. After a final commit, the saved images grow by exactly the image expected for that row. |
| Protocol.AbsorbAllOutputs | rcvfinal.py:36-113 | Absorbing all rows adds every row text in order. After a final commit, the saved images are exactly the expected images in order. |
| Protocol.DecodedImagesAreIntact | rcvfinal.py:105-111 | When decoding inverts encoding, the expected saved images are the sent files' own bytes under their stripped names. Empty files are the exception, since their text is empty and is never committed. |
| Protocol.EndToEnd | sendimgcvfinal.py:53-93 | With each write delivered as its own read, a run of well-formed rows does not abort. The receiver's session records every row text in order and saves every expected image in order. When decoding inverts encoding, these are exactly the sent files' bytes. |
| Protocol.EmptyImageIsMarkedButNotSaved | sendimgcvfinal.py:85-92 | An eligible image whose encoding is empty is marked as sent, but the receiver saves nothing for it. |
| Protocol.MetadataOnly | rcvfinal.py:36-40 | A session holding only the frame `csv,A,B,C,none` records exactly the row `A,B,C,none` and saves nothing. |
| Protocol.CycleRun | rcvfinal.py:42-94 | The token, name and chunks cycle takes any ready receiver to the new name with the chunks as its text, after committing the previous image. |
| Protocol.CycleThenEnd | rcvfinal.py:42-113 | From any ready receiver, one cycle followed by the final commit saves the receiver's pending image, if any, and then exactly the cycle's image, when its text is non-empty and decodes. |
| Protocol.FullImageCycle | rcvfinal.py:42-113 | A session of one cycle saves exactly the decoded concatenation of its chunks under its name. |
| Protocol.AnnouncementTimesOut | rcvfinal.py:42-73 | A token followed by three seconds of silence only commits the pending image. |
| Protocol.LateFileName | rcvfinal.py:58-90 | A file name that arrives after the wait timed out is still taken as the name by the `.jpg` rule. The image is then saved under it. |
| Protocol.LateFileNameRun | rcvfinal.py:58-94 | With no pending image text, the late name becomes current and the chunks become its text. |
| Protocol.NameFrameThenChunks | rcvfinal.py:75-94 | A bare file-name frame followed by chunk frames starts the image under that name. |
| Protocol.OverlappingImages | rcvfinal.py:42-56 | With two cycles in a row, the first image is committed under its own name before the second begins. The session saves both, in order. |
| Protocol.OverlappingRun | rcvfinal.py:42-113 | The same holds from any ready receiver with nothing pending. |
| Protocol.CoalescedRun | rcvfinal.py:42-94 | When the token shares a read with any following text and a silence follows, the chunks that come next are accumulated under the previous name. |
| Protocol.CoalescedAnnouncementMisfiles | sendimgcvfinal.py:74-78 | When the token and the name the sender writes back to back arrive in one read, the new image's text is committed under the previous image's name. The new name is lost. |

## Left out

- The serial port is not modelled: opening, `in_waiting` polling, closing and `SerialException` handling. A read is a link event, and link failures are not modelled.
- The sleeps are not modelled. The receiver's three-second wait is a `Silence` event, and the sender's dwell times are not modelled at all.
- Base64 is a pair of parameters, `encode` and `decode`. The end-to-end results assume `encode` produces text in the RFC 4648 alphabet, and some also assume `decode` inverts it.
- Decoding with `errors='ignore'` and encoding to UTF-8 are not modelled. Text is a sequence of characters throughout.
- The `csv` module's quoting and parsing are not modelled. The table is given as its parsed rows.
- The received log file and the image folder are not modelled as files. The log is the list of rows, each written with a trailing newline. The folder is the list of saved images in order, so saving an image under an existing name adds a second entry instead of overwriting.
- Path joining with `received_images_dir` and `image_folder` is not modelled. Names are used as given.
- Receiver.Flush: records the image whenever decoding succeeds. The source's `except` at rcvfinal.py:47-54 also swallows failures to open or write the output file, and those are not modelled.
- Text.Lower: maps only ASCII capitals. For the "none" test this gives the same answer as Python's `str.lower`, because no non-ASCII character lower-cases to `n`, `o` or `e`.
- Sender.Entry: `Directory` stands for every image path that exists but cannot be opened, permission errors included. Each of these aborts the run with `Unreadable`.
- Receiver.Step: the contract states only that an event is consumed. What a step does is stated by `Receiver.ReadWithoutFrame`, `Receiver.ReadWithFrame`, `Receiver.FrameTailIsDropped` and `Receiver.TokenTailFeedsWait`.
- Receiver.Session: the contract states only that nothing is left pending. It does not state, for an arbitrary event list, that the commit at exit (rcvfinal.py:103-113) saves the pending image, because a goal that unfolds the main loop over an arbitrary event list is too costly for the solver. The commit at exit follows from the `Receiver.Flush` contract and the definition of `Session`. It is proved for given sessions by `Protocol.CycleThenEnd`, `Protocol.FullImageCycle`, `Protocol.OverlappingRun` and `Protocol.EndToEnd`.
- Receiver.Await: the contract states only how many events are consumed and the timeout's buffer. What the wait means for the session is stated by `Receiver.TimedOutWaitKeepsName` and `Receiver.ArrivedNameIsStored`.
- Sender.ReplaySendsOnlyMetadata: not promised for a ledger whose last line lacks its newline, which the sender itself never writes but a hand-edited file may have (`Sender.UnterminatedLedgerResends` shows the resend), nor after a first run that aborted, whose later rows were never marked.
- Protocol.EndToEnd: assumes each write reaches the receiver as its own read, and that no silence separates the token from the name. The sender does not arrange this (see Findings).
- A receiver that extracts every complete frame from the buffer before the next read is not modelled. Only the code's one-frame-per-read behaviour is.
- Progress and warning messages printed to the console are not modelled.
- `babydetectcry.py`, which produces the monitoring table, is not part of this model.

## Findings

| source | as written | input that shows it | evidently intended | confidence | as-written member | corrected member |
|---|---|---|---|---|---|---|
| sendimgcvfinal.py:74-78 | The token `image_name.?` and the file name are written back to back, with the four-second pause only after both. The receiver extracts one frame per read and then waits three seconds for the name (rcvfinal.py:58-73). | The receiver holds `a.jpg`. One read brings `image_name.?b.jpg.?`, then three seconds pass with no read, then `b.jpg`'s chunk frames arrive. The name `b.jpg` is discarded with the tail of the read, and the chunks are saved under `a.jpg`. With no name held, the same burst keeps `b.jpg.?` in the buffer instead, and the first chunk read completes it: the name is set but that chunk frame is discarded, so the image is saved without its first chunk. | The name reaches the receiver as a frame of its own, and the chunks are saved under `b.jpg`. | medium; not executed | Protocol.CoalescedAnnouncementMisfiles, Receiver.UnnamedCoalescedAnnouncementDropsRead | Protocol.EndToEnd |

=== FILE: chunking.dfy ===
/** Splitting the Base64 text of an image into the payloads of chunk frames:
    the sender walks the text in steps of ChunkSize and sends each slice. */
module Chunking {
  import opened Text

  /** Characters of encoded image text per chunk frame, terminator not counted. */
  const ChunkSize: nat := 198

  function Min(a: int, b: int): int { if a <= b then a else b }

  /** The payloads of the chunk frames for `msg`, in sending order. */
  function Chunks(msg: string): (r: seq<string>)
    ensures Concat(r) == msg
    ensures forall k :: 0 <= k < |r| ==> 0 < |r[k]| <= ChunkSize
    ensures forall k :: 0 <= k < |r| - 1 ==> |r[k]| == ChunkSize
    decreases |msg|
  {
    if |msg| == 0 then []
    else if |msg| <= ChunkSize then [msg]
    else [msg[..ChunkSize]] + Chunks(msg[ChunkSize..])
  }

  /** There are ceil(len(msg) / 198) chunks, one per step of the sender's range loop. */
  lemma {:induction false} ChunkCount(msg: string)
    ensures |Chunks(msg)| == (|msg| + ChunkSize - 1) / ChunkSize
    decreases |msg|
  {
    if |msg| > ChunkSize {
      ChunkCount(msg[ChunkSize..]);
    }
  }

  /** Chunk `k` is the slice msg[k*198 : min(k*198 + 198, len(msg))], the
      slice the sender's `range(0, len(message), chunk_size)` loop cuts. */
  lemma {:induction false} ChunkIsRangeSlice(msg: string, k: nat)
    requires k < |Chunks(msg)|
    ensures k * ChunkSize <= Min(k * ChunkSize + ChunkSize, |msg|) <= |msg|
    ensures Chunks(msg)[k] == msg[k * ChunkSize .. Min(k * ChunkSize + ChunkSize, |msg|)]
    decreases |msg|
  {
    if |msg| <= ChunkSize {
      assert k == 0 && Chunks(msg) == [msg];
      assert k * ChunkSize == 0 && Min(k * ChunkSize + ChunkSize, |msg|) == |msg|;
      assert msg[0..|msg|] == msg;
    } else {
      var rest := msg[ChunkSize..];
      assert Chunks(msg) == [msg[..ChunkSize]] + Chunks(rest);
      if k == 0 {
        assert k * ChunkSize == 0 && Min(k * ChunkSize + ChunkSize, |msg|) == ChunkSize;
        assert Chunks(msg)[k] == msg[0..ChunkSize];
      } else {
        ChunkIsRangeSlice(rest, k - 1);
        var lo := (k - 1) * ChunkSize;
        var hi := Min(lo + ChunkSize, |rest|);
        assert ChunkSize + lo == k * ChunkSize by {
          assert (k - 1) * ChunkSize == k * ChunkSize - ChunkSize;
        }
        assert ChunkSize + hi == Min(k * ChunkSize + ChunkSize, |msg|);
        DropSlice(msg, ChunkSize, lo, hi);
      }
    }
  }

  lemma DropSlice(s: string, n: nat, lo: nat, hi: nat)
    requires n <= |s| && lo <= hi <= |s| - n
    ensures s[n..][lo..hi] == s[n + lo .. n + hi]
  {
  }

  /** A text of exactly n * 198 characters is sent as exactly n full chunks. */
  lemma ExactMultipleOfChunkSize(msg: string, n: nat)
    requires |msg| == n * ChunkSize
    ensures |Chunks(msg)| == n
    ensures forall k :: 0 <= k < n ==> |Chunks(msg)[k]| == ChunkSize
  {
    var r := Chunks(msg);
    ChunkCount(msg);
    assert (n * ChunkSize + ChunkSize - 1) / ChunkSize == n;
    if n > 0 {
      assert |r[n - 1]| == ChunkSize by {
        ChunkIsRangeSlice(msg, n - 1);
      }
    }
  }

  /** Every chunk of Base64 text is itself Base64 text. */
  lemma {:induction false} ChunksOfBase64(msg: string)
    requires IsBase64Text(msg)
    ensures forall k :: 0 <= k < |Chunks(msg)| ==> IsBase64Text(Chunks(msg)[k])
    decreases |msg|
  {
    if |msg| > ChunkSize {
      var rest := msg[ChunkSize..];
      ChunksOfBase64(rest);
      forall k | 0 <= k < |Chunks(msg)|
        ensures IsBase64Text(Chunks(msg)[k])
      {
        if k > 0 {
          assert Chunks(msg)[k] == Chunks(rest)[k - 1];
        }
      }
    }
  }
}

=== FILE: common.dfy ===
/** Small value types shared by the sender and the receiver models. */
module Common {

  /** A value that may be absent: Python's None versus a present value. */
  datatype Option<+T> = None | Some(value: T)

  /** The outcome of an operation that may raise instead of returning. */
  datatype Result<+T, +E> = Success(value: T) | Failure(error: E)

  /** One octet of an image file. */
  newtype byte = x: int | 0 <= x < 256

  /** The raw contents of an image file. */
  type Bytes = seq<byte>

  /** Sequence concatenation regroups freely. */
  lemma AppendAssoc<T>(x: seq<T>, y: seq<T>, z: seq<T>)
    ensures x + (y + z) == (x + y) + z
  {
  }
}

=== FILE: ledger.dfy ===
/** The sent-image ledger: a text file holding one image name per line. The
    sender loads it once as a set of lines and appends `name + "\n"` after an
    image has been transmitted. A file that does not exist is `None`. */
module Ledger {
  import opened Common
  import opened Text

  /** The characters Python's str.splitlines() breaks at ("\r\n" counts once). */
  predicate IsLineBreak(c: char) {
    || c == '\n' || c == '\r' || c == '\U{0B}' || c == '\U{0C}'
    || '\U{1C}' <= c <= '\U{1E}'
    || c == '\U{85}' || c == '\U{2028}' || c == '\U{2029}'
  }

  predicate NoLineBreak(s: string) {
    forall i :: 0 <= i < |s| ==> !IsLineBreak(s[i])
  }

  /** Index of the first line break in `s`, or |s| when there is none. */
  function FirstBreak(s: string): (i: nat)
    ensures i <= |s|
    ensures i < |s| ==> IsLineBreak(s[i])
    ensures forall k :: 0 <= k < i ==> !IsLineBreak(s[k])
    decreases |s|
  {
    if |s| == 0 then 0
    else if IsLineBreak(s[0]) then 0
    else 1 + FirstBreak(s[1..])
  }

  /** Python's str.splitlines(): the lines of `s` without their terminators;
      a final terminator does not start an extra empty line. */
  function SplitLines(s: string): (r: seq<string>)
    ensures forall k :: 0 <= k < |r| ==> NoLineBreak(r[k])
    decreases |s|
  {
    if |s| == 0 then []
    else
      var i := FirstBreak(s);
      if i == |s| then [s]
      else
        [s[..i]] + SplitLines(s[i + BreakWidth(s, i)..])
  }

  /** Only ever appended to in `name + "\n"` pieces, the file is empty or ends in "\n". */
  predicate WellFormed(file: Option<string>) {
    file.None? || file.value == [] || file.value[|file.value| - 1] == '\n'
  }

  /** load_sent_images: the set of lines of the file, or the empty set when it is missing. */
  function Load(file: Option<string>): (r: set<string>)
    ensures file.None? ==> r == {}
    ensures forall line :: line in r ==> NoLineBreak(line)
  {
    match file
    case None => {}
    case Some(text) => set line | line in SplitLines(text)
  }

  /** mark_image_as_sent: append `name` and a newline, creating the file if needed. */
  function Append(file: Option<string>, name: string): (r: Option<string>)
    ensures r.Some?
    ensures file.Some? ==> StartsWith(r.value, file.value)
    ensures |r.value| > 0 && r.value[|r.value| - 1] == '\n'
  {
    match file
    case None => Some(name + "\n")
    case Some(text) => Some(text + name + "\n")
  }

  /** Repeated mark_image_as_sent calls, in order. */
  function AppendAll(file: Option<string>, names: seq<string>): Option<string>
    decreases |names|
  {
    if |names| == 0 then file else AppendAll(Append(file, names[0]), names[1..])
  }

  /** The width of the line break at index `i`: "\r\n" is one break of two characters. */
  function BreakWidth(s: string, i: nat): nat
    requires i < |s|
  {
    if s[i] == '\r' && i + 1 < |s| && s[i + 1] == '\n' then 2 else 1
  }

  lemma {:induction false} SplitLinesAtBreak(s: string)
    requires FirstBreak(s) < |s|
    ensures var i := FirstBreak(s);
      i + BreakWidth(s, i) <= |s| &&
      SplitLines(s) == [s[..i]] + SplitLines(s[i + BreakWidth(s, i)..])
  {
  }

  /** Lines of a text that ends in "\n" never merge with what is appended after it. */
  lemma {:induction false} SplitLinesAppend(a: string, b: string)
    requires a == [] || a[|a| - 1] == '\n'
    ensures SplitLines(a + b) == SplitLines(a) + SplitLines(b)
    decreases |a|
  {
    if |a| == 0 {
      assert a + b == b;
    } else {
      var s := a + b;
      var i := FirstBreak(a);
      FirstBreakPrefix(a, b);
      var w := BreakWidth(a, i);
      assert BreakWidth(s, i) == w;
      var tail := a[i + w..];
      assert tail == [] || tail[|tail| - 1] == '\n';
      SplitLinesAtBreak(a);
      SplitLinesAtBreak(s);
      assert s[..i] == a[..i];
      DropAppend(a, b, i + w);
      SplitLinesAppend(tail, b);
      calc {
        SplitLines(s);
        [a[..i]] + SplitLines(tail + b);
        [a[..i]] + (SplitLines(tail) + SplitLines(b));
        { AppendAssoc([a[..i]], SplitLines(tail), SplitLines(b)); }
        ([a[..i]] + SplitLines(tail)) + SplitLines(b);
        SplitLines(a) + SplitLines(b);
      }
    }
  }

  lemma DropAppend(a: string, b: string, n: nat)
    requires n <= |a|
    ensures (a + b)[n..] == a[n..] + b
  {
  }

  lemma {:induction false} FirstBreakPrefix(a: string, b: string)
    requires FirstBreak(a) < |a|
    ensures FirstBreak(a + b) == FirstBreak(a)
    decreases |a|
  {
    if !IsLineBreak(a[0]) {
      assert (a + b)[1..] == a[1..] + b;
      FirstBreakPrefix(a[1..], b);
    }
  }

  /** A name without line breaks, written as one line, reads back as that name. */
  lemma OneLine(name: string)
    requires NoLineBreak(name)
    ensures SplitLines(name + "\n") == [name]
  {
    var s := name + "\n";
    FirstBreakAfter(name, '\n', "");
    assert name + ['\n'] + "" == s;
    assert s[..|name|] == name;
    assert s[|name| + 1..] == [];
  }

  /** The first line break after a break-free prefix is the one that follows it. */
  lemma {:induction false} FirstBreakAfter(prefix: string, c: char, rest: string)
    requires NoLineBreak(prefix) && IsLineBreak(c)
    ensures FirstBreak(prefix + [c] + rest) == |prefix|
    decreases |prefix|
  {
    if |prefix| > 0 {
      assert (prefix + [c] + rest)[1..] == prefix[1..] + [c] + rest;
      FirstBreakAfter(prefix[1..], c, rest);
    }
  }

  /** Ledger round trip: after appending `name`, reloading yields the earlier
      members plus `name`, and the file stays well formed. */
  lemma {:induction false} AppendThenLoad(file: Option<string>, name: string)
    requires WellFormed(file) && NoLineBreak(name)
    ensures Load(Append(file, name)) == Load(file) + {name}
    ensures WellFormed(Append(file, name))
  {
    var text := if file.None? then "" else file.value;
    var lines := SplitLines(text);
    AppendedLines(file, name);
    assert Load(file) == set l | l in lines;
    LinesOfAppend(lines, [name]);
  }

  /** Appending a break-free name to a well-formed file adds exactly one line. */
  lemma AppendedLines(file: Option<string>, name: string)
    requires WellFormed(file) && NoLineBreak(name)
    ensures SplitLines(Append(file, name).value) == SplitLines(if file.None? then "" else file.value) + [name]
  {
    var text := if file.None? then "" else file.value;
    assert Append(file, name).value == text + (name + "\n") by {
      if file.Some? {
        AppendAssoc(text, name, "\n");
      } else {
        assert text + (name + "\n") == name + "\n";
      }
    }
    OneLine(name);
    SplitLinesAppend(text, name + "\n");
  }

  lemma LinesOfAppend(a: seq<string>, b: seq<string>)
    ensures (set l | l in a + b) == (set l | l in a) + (set l | l in b)
  {
  }

  /** Reloading after a run that appended `names` adds exactly those names. */
  lemma {:induction false} AppendAllThenLoad(file: Option<string>, names: seq<string>)
    requires WellFormed(file)
    requires forall k :: 0 <= k < |names| ==> NoLineBreak(names[k])
    ensures Load(AppendAll(file, names)) == Load(file) + set n | n in names
    ensures WellFormed(AppendAll(file, names))
    decreases |names|
  {
    if |names| > 0 {
      AppendThenLoad(file, names[0]);
      AppendAllThenLoad(Append(file, names[0]), names[1..]);
      assert (set n | n in names) == {names[0]} + set n | n in names[1..];
    }
  }

  /** A file whose last line lacks its newline, as one not written by `Append`
      may, glues the next appended name onto that line: the name is not read
      back. */
  lemma UnterminatedLineMerges(line: string, name: string)
    requires line != "" && NoLineBreak(line) && NoLineBreak(name)
    ensures Load(Some(line)) == {line}
    ensures Load(Append(Some(line), name)) == {line + name}
    ensures name !in Load(Append(Some(line), name))
  {
    assert SplitLines(line) == [line] by {
      assert FirstBreak(line) == |line|;
    }
    assert Append(Some(line), name).value == (line + name) + "\n";
    OneLine(line + name);
    assert |line + name| > |name|;
  }

  /** A name containing a line break is not read back as itself. */
  lemma BrokenNameIsLost(file: Option<string>, name: string)
    requires !NoLineBreak(name)
    ensures name !in Load(Append(file, name))
  {
  }

  /** `"a\rb"`, for one, comes back as the two lines around the break. */
  lemma BrokenNameLines()
    ensures SplitLines("a\rb" + "\n") == ["a", "b"]
  {
    var s := "a\rb" + "\n";
    assert FirstBreak(s) == 1 && BreakWidth(s, 1) == 1 by {
      assert s == "a" + ['\r'] + "b\n";
      FirstBreakAfter("a", '\r', "b\n");
    }
    assert s[..1] == "a" && s[2..] == "b" + "\n";
    SplitLinesAtBreak(s);
    OneLine("b");
  }
}

=== FILE: protocol.dfy ===
/** The sender and the receiver joined by the link. The end-to-end results
    here rest on an assumption about delivery that the sender does not
    arrange: every write reaches the receiver as a read of its own, and no
    three-second silence falls between an announcement and the file name
    after it. The sender pauses after the metadata frame, after the file name
    and after each chunk, but writes the announcement and the file name back
    to back, so nothing keeps those two apart; CoalescedAnnouncementMisfiles
    shows what follows when they share a read. Under the assumption, and for
    rows whose text and image names carry no terminator, the receiver's
    session records every row and saves every sent image under its stripped
    name with the decoded text of its chunks. */
module Protocol {
  import opened Common
  import opened Text
  import Chunking
  import S = Sender
  import R = Receiver

  /** The assumed delivery: each frame written arrives as one read. */
  function Deliver(frames: seq<string>): seq<R.Event> {
    seq(|frames|, k requires 0 <= k < |frames| => R.Data(frames[k]))
  }

  lemma DeliverAppend(a: seq<string>, b: seq<string>)
    ensures Deliver(a + b) == Deliver(a) + Deliver(b)
  {
  }

  /** No Base64 character is whitespace, the row prefix's comma, the dot that
      starts ".jpg", or the underscore in the announcement token. */
  lemma Base64CharShape(ch: char)
    requires IsBase64Char(ch)
    ensures !IsSpace(ch) && ch != ',' && ch != '.' && ch != '_'
  {
  }

  lemma DeliverThree(a: string, b: string, c: string)
    ensures Deliver([a, b, c]) == [R.Data(a), R.Data(b), R.Data(c)]
  {
  }

  /** A non-empty chunk of Base64 text is classified as image data. */
  lemma Base64ChunkIsData(c: string)
    requires c != "" && IsBase64Text(c)
    ensures !ContainsSentinel(c) && Strip(c) == c
    ensures !StartsWith(c, CsvPrefix) && c != ImageToken && !EndsWith(c, R.NameSuffix)
  {
    Base64HasNoSentinel(c);
    Base64CharShape(c[0]);
    Base64CharShape(c[|c| - 1]);
    assert Unpadded(c);
    if |c| >= 4 {
      Base64CharShape(c[3]);
      assert c[..4][3] == c[3];
      Base64CharShape(c[|c| - 4]);
      assert c[|c| - 4..][0] == c[|c| - 4];
    }
    assert ImageToken[5] == '_';
    if |c| > 5 {
      Base64CharShape(c[5]);
    }
  }

  /** The reads that carry chunk frames, one chunk each. */
  function ChunkEvents(cs: seq<string>): seq<R.Event>
    decreases |cs|
  {
    if |cs| == 0 then [] else [R.Data(S.Frame(cs[0]))] + ChunkEvents(cs[1..])
  }

  lemma {:induction false} DeliverChunkFrames(cs: seq<string>)
    ensures Deliver(S.Frames(S.ChunkWrites(cs))) == ChunkEvents(cs)
    decreases |cs|
  {
    S.ChunkFramesCarryText(cs);
    if |cs| > 0 {
      DeliverChunkFrames(cs[1..]);
      S.ChunkFramesCarryText(cs[1..]);
      var all, rest := Deliver(S.Frames(S.ChunkWrites(cs))), ChunkEvents(cs[1..]);
      assert |all| == 1 + |rest|;
      forall k | 0 <= k < |all| ensures all[k] == ChunkEvents(cs)[k] {
        if k > 0 {
          assert all[k] == rest[k - 1];
        }
      }
    }
  }

  /** One chunk frame read on its own appends its payload to the image text. */
  lemma ChunkDelivered(s: R.State, c: string, more: seq<R.Event>, decode: string -> Option<Bytes>)
    requires s.buffer == "" && c != "" && IsBase64Text(c)
    ensures R.Run(s, [R.Data(S.Frame(c))] + more, decode) == R.Run(s.(mainmess := s.mainmess + c), more, decode)
  {
    Base64ChunkIsData(c);
    assert s.buffer + S.Frame(c) == c + Sentinel + "";
    R.RunAfterFrame(s, S.Frame(c), c, "", more, decode);
    assert s.(buffer := "") == s;
    R.DataFrameAccumulates(s, c, more, decode);
  }

  /** Chunk frames read one at a time append their payloads, in order, to the
      image text and change nothing else. */
  lemma {:induction false} ChunksReassemble(s: R.State, cs: seq<string>, more: seq<R.Event>, decode: string -> Option<Bytes>)
    requires s.buffer == ""
    requires forall k :: 0 <= k < |cs| ==> cs[k] != "" && IsBase64Text(cs[k])
    ensures R.Run(s, ChunkEvents(cs) + more, decode) == R.Run(s.(mainmess := s.mainmess + Concat(cs)), more, decode)
    decreases |cs|
  {
    if |cs| == 0 {
      assert ChunkEvents(cs) + more == more;
      assert s.mainmess + Concat(cs) == s.mainmess;
    } else {
      var c, rest := cs[0], cs[1..];
      var s1 := s.(mainmess := s.mainmess + c);
      assert forall k :: 0 <= k < |rest| ==> rest[k] != "" && IsBase64Text(rest[k]) by {
        forall k | 0 <= k < |rest| ensures rest[k] != "" && IsBase64Text(rest[k]) {
          assert rest[k] == cs[k + 1];
        }
      }
      ConcatCons(s.mainmess, cs);
      calc {
        R.Run(s, ChunkEvents(cs) + more, decode);
        { AppendAssoc([R.Data(S.Frame(c))], ChunkEvents(rest), more); }
        R.Run(s, [R.Data(S.Frame(c))] + (ChunkEvents(rest) + more), decode);
        { ChunkDelivered(s, c, ChunkEvents(rest) + more, decode); }
        R.Run(s1, ChunkEvents(rest) + more, decode);
        { ChunksReassemble(s1, rest, more, decode); }
        R.Run(s1.(mainmess := s1.mainmess + Concat(rest)), more, decode);
      }
    }
  }

  lemma ConcatCons(m: string, cs: seq<string>)
    requires |cs| > 0
    ensures (m + cs[0]) + Concat(cs[1..]) == m + Concat(cs)
  {
    AppendAssoc(m, cs[0], Concat(cs[1..]));
  }

  /** The receiver is between rows: nothing buffered, and image text only
      accumulates while an image name is held. */
  predicate Ready(s: R.State) {
    s.buffer == "" && (R.HasName(s) || s.mainmess == "")
  }

  /** A row the link carries intact: four fields, no terminator in its text,
      and, when its image is eligible, a readable file whose name has no
      terminator and is not blank, and whose encoding is Base64 text. */
  predicate WellFormedRow(row: S.Row, sent: set<string>, store: map<string, S.Entry>, encode: Bytes -> string) {
    && |row| == 4
    && !ContainsSentinel(Join(row, ","))
    && (S.Eligible(row[3], sent, store) ==>
          && store[row[3]].Regular?
          && !ContainsSentinel(row[3])
          && Strip(row[3]) != ""
          && IsBase64Text(encode(store[row[3]].data)))
  }

  predicate WellFormedRows(rows: seq<S.Row>, sent: set<string>, store: map<string, S.Entry>, encode: Bytes -> string) {
    forall k :: 0 <= k < |rows| ==> WellFormedRow(rows[k], sent, store, encode)
  }

  /** The text a row is recorded as: its fields joined by commas, with trailing
      whitespace lost to the receiver's strip. */
  function RowText(row: S.Row): string {
    TrimRight(Join(row, ","))
  }

  /** What receiving one row's frames does to a ready receiver: record the row
      and, for a sent image, commit the previous image and start the new one. */
  function Absorb(s: R.State, row: S.Row, sent: set<string>, store: map<string, S.Entry>, encode: Bytes -> string, decode: string -> Option<Bytes>): R.State
    requires WellFormedRow(row, sent, store, encode)
  {
    var t := s.(rows := s.rows + [RowText(row)]);
    if S.Eligible(row[3], sent, store) then
      R.Flush(t, decode).(imageName := Some(Strip(row[3])), mainmess := encode(store[row[3]].data))
    else t
  }

  function AbsorbAll(s: R.State, rows: seq<S.Row>, sent: set<string>, store: map<string, S.Entry>, encode: Bytes -> string, decode: string -> Option<Bytes>): R.State
    requires WellFormedRows(rows, sent, store, encode)
    decreases |rows|
  {
    if |rows| == 0 then s
    else AbsorbAll(Absorb(s, rows[0], sent, store, encode, decode), rows[1..], sent, store, encode, decode)
  }

  lemma RowPrefixShape()
    ensures !ContainsSentinel(CsvPrefix) && !IsSpace(CsvPrefix[0]) && !IsSpace(CsvPrefix[3])
  {
    forall j | 0 <= j < |CsvPrefix| ensures !SentinelAt(CsvPrefix, j) {
      assert CsvPrefix[j] != '.';
    }
  }

  /** A metadata frame read on its own records the row's text. */
  lemma MetadataDelivered(s: R.State, row: S.Row, more: seq<R.Event>, decode: string -> Option<Bytes>)
    requires s.buffer == "" && |row| == 4 && !ContainsSentinel(Join(row, ","))
    ensures R.Run(s, [R.Data(S.MetadataFrame(row))] + more, decode)
         == R.Run(s.(rows := s.rows + [RowText(row)]), more, decode)
  {
    var j := Join(row, ",");
    var head := CsvPrefix + j;
    RowPrefixShape();
    SentinelInConcat(CsvPrefix, j);
    StripAfterPrefix(CsvPrefix, j);
    assert s.buffer + S.MetadataFrame(row) == head + Sentinel + "";
    R.ReadWithFrame(s, S.MetadataFrame(row), head, "", more, decode);
    var msg := CsvPrefix + TrimRight(j);
    assert msg[..4] == CsvPrefix;
    R.MetadataFrameAppendsRow(s.(buffer := ""), msg, more, decode);
    assert msg[4..] == TrimRight(j);
  }

  /** The announcement followed by the file name, each read on its own,
      commits the pending image and sets the stripped name. */
  lemma AnnouncementDelivered(s: R.State, name: string, more: seq<R.Event>, decode: string -> Option<Bytes>)
    requires s.buffer == "" && !ContainsSentinel(name) && Strip(name) != ""
    ensures R.Run(s, [R.Data(S.Frame(ImageToken)), R.Data(S.Frame(name))] + more, decode)
         == R.Run(R.Flush(s, decode).(imageName := Some(Strip(name))), more, decode)
  {
    R.TokenShape();
    var rest := [R.Data(S.Frame(name))] + more;
    assert [R.Data(S.Frame(ImageToken)), R.Data(S.Frame(name))] + more == [R.Data(S.Frame(ImageToken))] + rest;
    assert s.buffer + S.Frame(ImageToken) == ImageToken + Sentinel + "";
    R.ReadWithFrame(s, S.Frame(ImageToken), ImageToken, "", rest, decode);
    SplitFrameOfFrame(name, "");
    assert "" + S.Frame(name) == name + Sentinel + "";
    assert rest[1..] == more;
    assert R.Await("", rest) == R.Arrived(Strip(name), "", more);
  }

  /** The reads one row's frames arrive as. */
  lemma RowEvents(row: S.Row, sent: set<string>, store: map<string, S.Entry>, encode: Bytes -> string)
    requires WellFormedRow(row, sent, store, encode)
    ensures S.SendRow(row, sent, store, encode).abort.None?
    ensures var events := Deliver(S.Frames(S.SendRow(row, sent, store, encode).effects));
      var meta := R.Data(S.MetadataFrame(row));
      if S.Eligible(row[3], sent, store) then
        events == [meta, R.Data(S.Frame(ImageToken)), R.Data(S.Frame(row[3]))]
                  + ChunkEvents(Chunking.Chunks(encode(store[row[3]].data)))
      else events == [meta]
  {
    if S.Eligible(row[3], sent, store) {
      ImageRowEvents(row, sent, store, encode);
    } else {
      var meta := S.MetadataFrame(row);
      assert S.SendRow(row, sent, store, encode) == S.Output([S.Write(meta)], None);
      assert S.Frames([S.Write(meta)]) == [meta] by {
        assert [S.Write(meta)][1..] == [];
      }
    }
  }

  lemma ImageRowEvents(row: S.Row, sent: set<string>, store: map<string, S.Entry>, encode: Bytes -> string)
    requires WellFormedRow(row, sent, store, encode) && S.Eligible(row[3], sent, store)
    ensures S.SendRow(row, sent, store, encode).abort.None?
    ensures Deliver(S.Frames(S.SendRow(row, sent, store, encode).effects))
         == [R.Data(S.MetadataFrame(row)), R.Data(S.Frame(ImageToken)), R.Data(S.Frame(row[3]))]
            + ChunkEvents(Chunking.Chunks(encode(store[row[3]].data)))
  {
    var msg := encode(store[row[3]].data);
    var cs := Chunking.Chunks(msg);
    var head := [S.MetadataFrame(row), S.Frame(ImageToken), S.Frame(row[3])];
    S.EligibleRowEffects(row, sent, store, encode);
    calc {
      Deliver(S.Frames(S.SendRow(row, sent, store, encode).effects));
      Deliver(head + S.ChunkFrames(msg));
      { DeliverAppend(head, S.ChunkFrames(msg)); }
      Deliver(head) + Deliver(S.Frames(S.ChunkWrites(cs)));
      { DeliverChunkFrames(cs); DeliverThree(head[0], head[1], head[2]); assert head == [head[0], head[1], head[2]]; }
      [R.Data(S.MetadataFrame(row)), R.Data(S.Frame(ImageToken)), R.Data(S.Frame(row[3]))] + ChunkEvents(cs);
    }
  }

  lemma Regroup<T>(a: T, b: T, c: T, x: seq<T>, y: seq<T>)
    ensures ([a, b, c] + x) + y == [a] + ([b, c] + (x + y))
  {
  }

  /** One row's frames, each read on its own, do to a ready receiver what
      Absorb says, and leave it ready. */
  lemma RowDelivered(s: R.State, row: S.Row, sent: set<string>, store: map<string, S.Entry>, encode: Bytes -> string, decode: string -> Option<Bytes>, more: seq<R.Event>)
    requires Ready(s) && WellFormedRow(row, sent, store, encode)
    ensures S.SendRow(row, sent, store, encode).abort.None?
    ensures Ready(Absorb(s, row, sent, store, encode, decode))
    ensures R.Run(s, Deliver(S.Frames(S.SendRow(row, sent, store, encode).effects)) + more, decode)
         == R.Run(Absorb(s, row, sent, store, encode, decode), more, decode)
  {
    RowEvents(row, sent, store, encode);
    var events := Deliver(S.Frames(S.SendRow(row, sent, store, encode).effects));
    var meta := R.Data(S.MetadataFrame(row));
    var t := s.(rows := s.rows + [RowText(row)]);
    if S.Eligible(row[3], sent, store) {
      var msg := encode(store[row[3]].data);
      var token, named := R.Data(S.Frame(ImageToken)), R.Data(S.Frame(row[3]));
      var ce := ChunkEvents(Chunking.Chunks(msg));
      calc {
        R.Run(s, events + more, decode);
        { Regroup(meta, token, named, ce, more); }
        R.Run(s, [meta] + ([token, named] + (ce + more)), decode);
        { MetadataDelivered(s, row, [token, named] + (ce + more), decode); }
        R.Run(t, [token, named] + (ce + more), decode);
        { ImageDelivered(t, row[3], msg, more, decode); }
        R.Run(Absorb(s, row, sent, store, encode, decode), more, decode);
      }
    } else {
      MetadataDelivered(s, row, more, decode);
    }
  }

  /** The announcement, a file name and chunk frames, each read on its own:
      the pending image is committed, then the new name and the text of all
      the chunks are held for the next commit. */
  lemma CycleDelivered(t: R.State, name: string, cs: seq<string>, more: seq<R.Event>, decode: string -> Option<Bytes>)
    requires Ready(t) && !ContainsSentinel(name) && Strip(name) != ""
    requires forall k :: 0 <= k < |cs| ==> cs[k] != "" && IsBase64Text(cs[k])
    ensures R.Run(t, [R.Data(S.Frame(ImageToken)), R.Data(S.Frame(name))] + (ChunkEvents(cs) + more), decode)
         == R.Run(R.Flush(t, decode).(imageName := Some(Strip(name)), mainmess := Concat(cs)), more, decode)
  {
    var f := R.Flush(t, decode);
    var u := f.(imageName := Some(Strip(name)));
    assert u.buffer == "" && u.mainmess == "";
    assert u.(mainmess := u.mainmess + Concat(cs)) == f.(imageName := Some(Strip(name)), mainmess := Concat(cs));
    calc {
      R.Run(t, [R.Data(S.Frame(ImageToken)), R.Data(S.Frame(name))] + (ChunkEvents(cs) + more), decode);
      { AnnouncementDelivered(t, name, ChunkEvents(cs) + more, decode); }
      R.Run(u, ChunkEvents(cs) + more, decode);
      { ChunksReassemble(u, cs, more, decode); }
      R.Run(f.(imageName := Some(Strip(name)), mainmess := Concat(cs)), more, decode);
    }
  }

  /** The same for the chunks the sender cuts from an image text `msg`: the
      receiver holds exactly `msg`. */
  lemma ImageDelivered(t: R.State, name: string, msg: string, more: seq<R.Event>, decode: string -> Option<Bytes>)
    requires Ready(t) && !ContainsSentinel(name) && Strip(name) != "" && IsBase64Text(msg)
    ensures R.Run(t, [R.Data(S.Frame(ImageToken)), R.Data(S.Frame(name))] + (ChunkEvents(Chunking.Chunks(msg)) + more), decode)
         == R.Run(R.Flush(t, decode).(imageName := Some(Strip(name)), mainmess := msg), more, decode)
  {
    var cs := Chunking.Chunks(msg);
    assert forall k :: 0 <= k < |cs| ==> cs[k] != "" && IsBase64Text(cs[k]) by {
      Chunking.ChunksOfBase64(msg);
    }
    CycleDelivered(t, name, cs, more, decode);
  }

  lemma WellFormedTail(rows: seq<S.Row>, sent: set<string>, store: map<string, S.Entry>, encode: Bytes -> string)
    requires |rows| > 0 && WellFormedRows(rows, sent, store, encode)
    ensures WellFormedRow(rows[0], sent, store, encode) && WellFormedRows(rows[1..], sent, store, encode)
  {
    forall k | 0 <= k < |rows[1..]| ensures WellFormedRow(rows[1..][k], sent, store, encode) {
      assert rows[1..][k] == rows[k + 1];
    }
  }

  /** A well-formed row never cuts the run short. */
  lemma RowNeverAborts(row: S.Row, sent: set<string>, store: map<string, S.Entry>, encode: Bytes -> string)
    requires WellFormedRow(row, sent, store, encode)
    ensures S.SendRow(row, sent, store, encode).abort.None?
  {
    RowEvents(row, sent, store, encode);
  }

  /** The reads of a run are those of its first row followed by those of the rest. */
  lemma RowsEvents(rows: seq<S.Row>, sent: set<string>, store: map<string, S.Entry>, encode: Bytes -> string)
    requires |rows| > 0 && WellFormedRows(rows, sent, store, encode)
    ensures S.SendRows(rows, sent, store, encode).abort == S.SendRows(rows[1..], sent, store, encode).abort
    ensures Deliver(S.Frames(S.SendRows(rows, sent, store, encode).effects))
         == Deliver(S.Frames(S.SendRow(rows[0], sent, store, encode).effects))
            + Deliver(S.Frames(S.SendRows(rows[1..], sent, store, encode).effects))
  {
    var first := S.SendRow(rows[0], sent, store, encode);
    var restOut := S.SendRows(rows[1..], sent, store, encode);
    assert S.SendRows(rows, sent, store, encode) == S.Output(first.effects + restOut.effects, restOut.abort) by {
      RowNeverAborts(rows[0], sent, store, encode);
      assert rows == [rows[0]] + rows[1..];
      S.SendRowsCons(rows[0], rows[1..], sent, store, encode);
    }
    calc {
      Deliver(S.Frames(first.effects + restOut.effects));
      { S.FramesAppend(first.effects, restOut.effects); }
      Deliver(S.Frames(first.effects) + S.Frames(restOut.effects));
      { DeliverAppend(S.Frames(first.effects), S.Frames(restOut.effects)); }
      Deliver(S.Frames(first.effects)) + Deliver(S.Frames(restOut.effects));
    }
  }

  /** The frames of a whole run of well-formed rows, each read on its own. */
  lemma {:induction false} RowsDelivered(s: R.State, rows: seq<S.Row>, sent: set<string>, store: map<string, S.Entry>, encode: Bytes -> string, decode: string -> Option<Bytes>, more: seq<R.Event>)
    requires Ready(s) && WellFormedRows(rows, sent, store, encode)
    ensures S.SendRows(rows, sent, store, encode).abort.None?
    ensures R.Run(s, Deliver(S.Frames(S.SendRows(rows, sent, store, encode).effects)) + more, decode)
         == R.Run(AbsorbAll(s, rows, sent, store, encode, decode), more, decode)
    decreases |rows|
  {
    if |rows| == 0 {
      assert Deliver(S.Frames([])) + more == more;
    } else {
      WellFormedTail(rows, sent, store, encode);
      RowsEvents(rows, sent, store, encode);
      var x := Deliver(S.Frames(S.SendRow(rows[0], sent, store, encode).effects));
      var y := Deliver(S.Frames(S.SendRows(rows[1..], sent, store, encode).effects));
      var s1 := Absorb(s, rows[0], sent, store, encode, decode);
      calc {
        R.Run(s, (x + y) + more, decode);
        { AppendAssoc(x, y, more); }
        R.Run(s, x + (y + more), decode);
        { RowDelivered(s, rows[0], sent, store, encode, decode, y + more); }
        R.Run(s1, y + more, decode);
        { RowDelivered(s, rows[0], sent, store, encode, decode, y + more);
          RowsDelivered(s1, rows[1..], sent, store, encode, decode, more); }
        R.Run(AbsorbAll(s1, rows[1..], sent, store, encode, decode), more, decode);
      }
      RowsDelivered(s1, rows[1..], sent, store, encode, decode, more);
    }
  }

  /** The rows the receiver is expected to record. */
  function RowTexts(rows: seq<S.Row>): seq<string> {
    seq(|rows|, k requires 0 <= k < |rows| => RowText(rows[k]))
  }

  /** What one flush-commit of image text `text` under `name` saves. */
  function Committed(name: string, text: string, decode: string -> Option<Bytes>): seq<R.Saved> {
    if text != "" && decode(text).Some? then [R.Saved(name, decode(text).value)] else []
  }

  /** The image the receiver is expected to save for one row, if any: a sent
      image whose text is not empty and decodes, under the stripped name. */
  function SavedFor(row: S.Row, sent: set<string>, store: map<string, S.Entry>, encode: Bytes -> string, decode: string -> Option<Bytes>): seq<R.Saved>
    requires WellFormedRow(row, sent, store, encode)
  {
    if S.Eligible(row[3], sent, store) then Committed(Strip(row[3]), encode(store[row[3]].data), decode) else []
  }

  /** The images the receiver is expected to save, in row order. */
  function ExpectedSaved(rows: seq<S.Row>, sent: set<string>, store: map<string, S.Entry>, encode: Bytes -> string, decode: string -> Option<Bytes>): seq<R.Saved>
    requires WellFormedRows(rows, sent, store, encode)
    decreases |rows|
  {
    if |rows| == 0 then []
    else SavedFor(rows[0], sent, store, encode, decode) + ExpectedSaved(rows[1..], sent, store, encode, decode)
  }

  /** The images that were sent, with the bytes read from the folder. */
  function SentImages(rows: seq<S.Row>, sent: set<string>, store: map<string, S.Entry>, encode: Bytes -> string): seq<R.Saved>
    requires WellFormedRows(rows, sent, store, encode)
    decreases |rows|
  {
    if |rows| == 0 then []
    else
      var row := rows[0];
      var here :=
        if S.Eligible(row[3], sent, store) && encode(store[row[3]].data) != "" then [R.Saved(Strip(row[3]), store[row[3]].data)]
        else [];
      here + SentImages(rows[1..], sent, store, encode)
  }

  /** Absorbing one row keeps the receiver ready, records the row's text, and
      adds the row's image, if any, to what the next flush-commit saves. */
  lemma AbsorbOutputs(s: R.State, row: S.Row, sent: set<string>, store: map<string, S.Entry>, encode: Bytes -> string, decode: string -> Option<Bytes>)
    requires Ready(s) && WellFormedRow(row, sent, store, encode)
    ensures Ready(Absorb(s, row, sent, store, encode, decode))
    ensures Absorb(s, row, sent, store, encode, decode).rows == s.rows + [RowText(row)]
    ensures R.Flush(Absorb(s, row, sent, store, encode, decode), decode).saved
         == R.Flush(s, decode).saved + SavedFor(row, sent, store, encode, decode)
  {
    var t := s.(rows := s.rows + [RowText(row)]);
    assert R.Pending(t) == R.Pending(s);
    assert R.Flush(t, decode).saved == R.Flush(s, decode).saved;
    if S.Eligible(row[3], sent, store) {
      var msg := encode(store[row[3]].data);
      var f := R.Flush(t, decode);
      var u := f.(imageName := Some(Strip(row[3])), mainmess := msg);
      assert Absorb(s, row, sent, store, encode, decode) == u;
      assert R.HasName(u) && u.buffer == "";
      assert R.Pending(u) == (msg != "");
      if msg != "" && decode(msg).Some? {
        assert R.Flush(u, decode).saved == f.saved + [R.Saved(Strip(row[3]), decode(msg).value)];
      } else {
        assert R.Flush(u, decode).saved == f.saved;
      }
    }
  }

  /** Absorbing rows keeps the receiver ready, records each row's text, and
      (counting the flush that ends the session) saves the expected images. */
  lemma AbsorbAllOutputs(s: R.State, rows: seq<S.Row>, sent: set<string>, store: map<string, S.Entry>, encode: Bytes -> string, decode: string -> Option<Bytes>)
    requires Ready(s) && WellFormedRows(rows, sent, store, encode)
    ensures Ready(AbsorbAll(s, rows, sent, store, encode, decode))
    ensures AbsorbAll(s, rows, sent, store, encode, decode).rows == s.rows + RowTexts(rows)
    ensures R.Flush(AbsorbAll(s, rows, sent, store, encode, decode), decode).saved
         == R.Flush(s, decode).saved + ExpectedSaved(rows, sent, store, encode, decode)
  {
    AbsorbAllReady(s, rows, sent, store, encode, decode);
    AbsorbAllRows(s, rows, sent, store, encode, decode);
    AbsorbAllSaved(s, rows, sent, store, encode, decode);
  }

  lemma {:induction false} AbsorbAllReady(s: R.State, rows: seq<S.Row>, sent: set<string>, store: map<string, S.Entry>, encode: Bytes -> string, decode: string -> Option<Bytes>)
    requires Ready(s) && WellFormedRows(rows, sent, store, encode)
    ensures Ready(AbsorbAll(s, rows, sent, store, encode, decode))
    decreases |rows|
  {
    if |rows| > 0 {
      WellFormedTail(rows, sent, store, encode);
      AbsorbOutputs(s, rows[0], sent, store, encode, decode);
      AbsorbAllReady(Absorb(s, rows[0], sent, store, encode, decode), rows[1..], sent, store, encode, decode);
    }
  }

  lemma {:induction false} AbsorbAllRows(s: R.State, rows: seq<S.Row>, sent: set<string>, store: map<string, S.Entry>, encode: Bytes -> string, decode: string -> Option<Bytes>)
    requires Ready(s) && WellFormedRows(rows, sent, store, encode)
    ensures AbsorbAll(s, rows, sent, store, encode, decode).rows == s.rows + RowTexts(rows)
    decreases |rows|
  {
    if |rows| == 0 {
      assert s.rows + RowTexts(rows) == s.rows;
    } else {
      var row := rows[0];
      WellFormedTail(rows, sent, store, encode);
      var s1 := Absorb(s, row, sent, store, encode, decode);
      AbsorbOutputs(s, row, sent, store, encode, decode);
      AbsorbAllRows(s1, rows[1..], sent, store, encode, decode);
      RowTextsCons(rows);
      AppendAssoc(s.rows, [RowText(row)], RowTexts(rows[1..]));
    }
  }

  lemma RowTextsCons(rows: seq<S.Row>)
    requires |rows| > 0
    ensures RowTexts(rows) == [RowText(rows[0])] + RowTexts(rows[1..])
  {
  }

  lemma {:induction false} AbsorbAllSaved(s: R.State, rows: seq<S.Row>, sent: set<string>, store: map<string, S.Entry>, encode: Bytes -> string, decode: string -> Option<Bytes>)
    requires Ready(s) && WellFormedRows(rows, sent, store, encode)
    ensures R.Flush(AbsorbAll(s, rows, sent, store, encode, decode), decode).saved
         == R.Flush(s, decode).saved + ExpectedSaved(rows, sent, store, encode, decode)
    decreases |rows|
  {
    if |rows| > 0 {
      var row := rows[0];
      WellFormedTail(rows, sent, store, encode);
      var s1 := Absorb(s, row, sent, store, encode, decode);
      AbsorbOutputs(s, row, sent, store, encode, decode);
      AbsorbAllSaved(s1, rows[1..], sent, store, encode, decode);
      AppendAssoc(R.Flush(s, decode).saved, SavedFor(row, sent, store, encode, decode), ExpectedSaved(rows[1..], sent, store, encode, decode));
    }
  }

  /** With a decoder that inverts the encoder, every sent image is saved with
      exactly the bytes that were read at the sender. */
  lemma {:induction false} DecodedImagesAreIntact(rows: seq<S.Row>, sent: set<string>, store: map<string, S.Entry>, encode: Bytes -> string, decode: string -> Option<Bytes>)
    requires WellFormedRows(rows, sent, store, encode)
    requires forall b :: decode(encode(b)) == Some(b)
    ensures ExpectedSaved(rows, sent, store, encode, decode) == SentImages(rows, sent, store, encode)
    decreases |rows|
  {
    if |rows| > 0 {
      assert WellFormedRows(rows[1..], sent, store, encode) by {
        forall k | 0 <= k < |rows[1..]| ensures WellFormedRow(rows[1..][k], sent, store, encode) {
          assert rows[1..][k] == rows[k + 1];
        }
      }
      DecodedImagesAreIntact(rows[1..], sent, store, encode, decode);
      if S.Eligible(rows[0][3], sent, store) {
        assert decode(encode(store[rows[0][3]].data)) == Some(store[rows[0][3]].data);
      }
    }
  }

  /** End to end, when each frame arrives in a read of its own: a run over
      well-formed rows is not cut short, and the receiver's session over its
      frames records every row's text in order and saves every sent, non-empty
      image, in order, under its stripped name — with the very bytes read at
      the sender when decoding inverts encoding. */
  lemma EndToEnd(rows: seq<S.Row>, sent: set<string>, store: map<string, S.Entry>, encode: Bytes -> string, decode: string -> Option<Bytes>)
    requires WellFormedRows(rows, sent, store, encode)
    ensures var out := S.SendRows(rows, sent, store, encode);
      var session := R.Session(Deliver(S.Frames(out.effects)), decode);
      && out.abort.None?
      && session.rows == RowTexts(rows)
      && session.saved == ExpectedSaved(rows, sent, store, encode, decode)
      && ((forall b :: decode(encode(b)) == Some(b)) ==> session.saved == SentImages(rows, sent, store, encode))
  {
    var out := S.SendRows(rows, sent, store, encode);
    RowsDelivered(R.Init, rows, sent, store, encode, decode, []);
    assert Deliver(S.Frames(out.effects)) + [] == Deliver(S.Frames(out.effects));
    AbsorbAllOutputs(R.Init, rows, sent, store, encode, decode);
    assert R.Init.rows + RowTexts(rows) == RowTexts(rows);
    assert R.Flush(R.Init, decode).saved == [];
    if forall b :: decode(encode(b)) == Some(b) {
      DecodedImagesAreIntact(rows, sent, store, encode, decode);
    }
  }

  /** An image file whose encoding is empty is recorded as sent in the ledger
      but never saved by the receiver: no chunk frame carries any data. */
  lemma EmptyImageIsMarkedButNotSaved(row: S.Row, sent: set<string>, store: map<string, S.Entry>, encode: Bytes -> string, decode: string -> Option<Bytes>)
    requires WellFormedRow(row, sent, store, encode) && S.Eligible(row[3], sent, store)
    requires encode(store[row[3]].data) == ""
    ensures S.Marked(S.SendRow(row, sent, store, encode).effects) == [row[3]]
    ensures ExpectedSaved([row], sent, store, encode, decode) == []
  {
    S.EligibleRowEffects(row, sent, store, encode);
    assert [row][1..] == [];
  }

  // ---------------------------------------------------------------------------
  // Worked scenarios, as the receiver sees them

  /** A single metadata frame, alone in the session, appends its row and
      saves no image. */
  lemma MetadataOnly(row: S.Row, decode: string -> Option<Bytes>)
    requires |row| == 4 && !ContainsSentinel(Join(row, ","))
    ensures R.Session([R.Data(S.MetadataFrame(row))], decode) == R.Init.(rows := [RowText(row)])
  {
    var events := [R.Data(S.MetadataFrame(row))];
    var t := R.Init.(rows := [RowText(row)]);
    calc {
      R.Session(events, decode);
      R.Flush(R.Run(R.Init, events, decode), decode);
      { assert events == events + [];
        MetadataDelivered(R.Init, row, [], decode); }
      R.Flush(R.Run(t, [], decode), decode);
      t;
    }
  }

  /** The reads of one image cycle as the sender writes them: the
      announcement, the file name, then one read per chunk. */
  function Cycle(name: string, cs: seq<string>): seq<R.Event> {
    [R.Data(ImageToken + Sentinel), R.Data(name + Sentinel)] + ChunkEvents(cs)
  }

  lemma CycleThen(name: string, cs: seq<string>, more: seq<R.Event>)
    ensures Cycle(name, cs) + more == [R.Data(S.Frame(ImageToken)), R.Data(S.Frame(name))] + (ChunkEvents(cs) + more)
  {
    assert S.Frame(ImageToken) == ImageToken + Sentinel;
    AppendAssoc([R.Data(ImageToken + Sentinel), R.Data(name + Sentinel)], ChunkEvents(cs), more);
  }

  lemma Regroup3<T>(a: T, b: T, c: T, x: seq<T>)
    ensures [a, b, c] + x == [a, b] + ([c] + x)
  {
  }

  /** The reads of an image cycle, followed by anything, as the main loop sees
      them from a ready receiver: the pending image is committed and the new
      name holds the text of all the chunks. */
  lemma CycleRun(s: R.State, name: string, cs: seq<string>, more: seq<R.Event>, decode: string -> Option<Bytes>)
    requires Ready(s) && !ContainsSentinel(name) && Unpadded(name) && name != ""
    requires forall k :: 0 <= k < |cs| ==> cs[k] != "" && IsBase64Text(cs[k])
    ensures R.Run(s, Cycle(name, cs) + more, decode)
         == R.Run(R.Flush(s, decode).(imageName := Some(name), mainmess := Concat(cs)), more, decode)
  {
    CycleThen(name, cs, more);
    CycleDelivered(s, name, cs, more, decode);
  }

  /** What a session that ends after an image cycle saves, from any ready
      receiver: the pending image, then the new one. */
  lemma CycleThenEnd(s: R.State, name: string, cs: seq<string>, decode: string -> Option<Bytes>)
    requires Ready(s) && !ContainsSentinel(name) && Unpadded(name) && name != ""
    requires forall k :: 0 <= k < |cs| ==> cs[k] != "" && IsBase64Text(cs[k])
    ensures R.Flush(R.Run(s, Cycle(name, cs), decode), decode).saved
         == R.Flush(s, decode).saved + Committed(name, Concat(cs), decode)
  {
    var u := R.Flush(s, decode).(imageName := Some(name), mainmess := Concat(cs));
    assert R.Run(s, Cycle(name, cs), decode) == u by {
      assert Cycle(name, cs) + [] == Cycle(name, cs);
      CycleRun(s, name, cs, [], decode);
    }
  }

  /** A full image cycle: announcement, file name, then the chunk frames, each
      read on its own and followed by the end of the stream, saves one image
      under that name holding the decoding of the chunks' concatenation. */
  lemma FullImageCycle(name: string, cs: seq<string>, decode: string -> Option<Bytes>)
    requires !ContainsSentinel(name) && Unpadded(name) && name != ""
    requires forall k :: 0 <= k < |cs| ==> cs[k] != "" && IsBase64Text(cs[k])
    ensures R.Session(Cycle(name, cs), decode).saved == Committed(name, Concat(cs), decode)
  {
    CycleThenEnd(R.Init, name, cs, decode);
  }

  /** An announcement whose file name does not arrive before a silence only
      commits the pending image; the receiver carries on from there. */
  lemma AnnouncementTimesOut(s: R.State, more: seq<R.Event>, decode: string -> Option<Bytes>)
    requires s.buffer == ""
    ensures R.Run(s, [R.Data(ImageToken + Sentinel), R.Silence] + more, decode)
         == R.Run(R.Flush(s, decode), more, decode)
  {
    R.TokenShape();
    var rest := [R.Silence] + more;
    assert [R.Data(ImageToken + Sentinel), R.Silence] + more == [R.Data(ImageToken + Sentinel)] + rest;
    assert s.buffer + (ImageToken + Sentinel) == ImageToken + Sentinel + "";
    R.ReadWithFrame(s, ImageToken + Sentinel, ImageToken, "", rest, decode);
    assert rest[1..] == more;
    assert R.Await("", rest) == R.TimedOut("", more);
  }

  /** The same cycle when the file name comes only after the three-second wait
      has timed out: the wait leaves no name, and the late name frame is then
      taken up by the ".jpg" rule, so the image is still saved under it. */
  lemma LateFileName(name: string, cs: seq<string>, decode: string -> Option<Bytes>)
    requires !ContainsSentinel(name) && Unpadded(name)
    requires !StartsWith(name, CsvPrefix) && EndsWith(name, R.NameSuffix) && |name| < R.NameLimit
    requires forall k :: 0 <= k < |cs| ==> cs[k] != "" && IsBase64Text(cs[k])
    ensures R.Session([R.Data(ImageToken + Sentinel), R.Silence, R.Data(name + Sentinel)] + ChunkEvents(cs), decode).saved
         == Committed(name, Concat(cs), decode)
  {
    LateFileNameRun(R.Init, name, cs, decode);
  }

  /** From an idle receiver with nothing pending, a timed-out announcement,
      then a ".jpg" name frame and the chunk frames, leave that name holding
      the chunks' text. */
  lemma LateFileNameRun(s: R.State, name: string, cs: seq<string>, decode: string -> Option<Bytes>)
    requires s.buffer == "" && s.mainmess == ""
    requires !ContainsSentinel(name) && Unpadded(name)
    requires !StartsWith(name, CsvPrefix) && EndsWith(name, R.NameSuffix) && |name| < R.NameLimit
    requires forall k :: 0 <= k < |cs| ==> cs[k] != "" && IsBase64Text(cs[k])
    ensures R.Run(s, [R.Data(ImageToken + Sentinel), R.Silence, R.Data(name + Sentinel)] + ChunkEvents(cs), decode)
         == s.(imageName := Some(name), mainmess := Concat(cs))
  {
    Regroup3(R.Data(ImageToken + Sentinel), R.Silence, R.Data(name + Sentinel), ChunkEvents(cs));
    AnnouncementTimesOut(s, [R.Data(name + Sentinel)] + ChunkEvents(cs), decode);
    assert R.Flush(s, decode) == s;
    NameFrameThenChunks(s, name, cs, decode);
  }

  /** From an idle receiver with nothing pending, a ".jpg" name frame followed
      by chunk frames leaves that name holding the chunks' text. */
  lemma NameFrameThenChunks(s: R.State, name: string, cs: seq<string>, decode: string -> Option<Bytes>)
    requires s.buffer == "" && s.mainmess == ""
    requires !ContainsSentinel(name) && Unpadded(name)
    requires !StartsWith(name, CsvPrefix) && EndsWith(name, R.NameSuffix) && |name| < R.NameLimit
    requires forall k :: 0 <= k < |cs| ==> cs[k] != "" && IsBase64Text(cs[k])
    ensures R.Run(s, [R.Data(name + Sentinel)] + ChunkEvents(cs), decode)
         == s.(imageName := Some(name), mainmess := Concat(cs))
  {
    var named := s.(imageName := Some(name));
    assert R.Run(s, [R.Data(name + Sentinel)] + ChunkEvents(cs), decode) == R.Run(named, ChunkEvents(cs), decode) by {
      assert s.buffer + (name + Sentinel) == name + Sentinel + "";
      R.RunAfterFrame(s, name + Sentinel, name, "", ChunkEvents(cs), decode);
      R.FileNameFrame(s.(buffer := ""), name, ChunkEvents(cs), decode);
      assert R.Dispatch(s.(buffer := ""), name, ChunkEvents(cs), decode) == (named, ChunkEvents(cs));
    }
    assert R.Run(named, ChunkEvents(cs), decode) == named.(mainmess := Concat(cs)) by {
      assert ChunkEvents(cs) + [] == ChunkEvents(cs);
      ChunksReassemble(named, cs, [], decode);
    }
  }

  /** A second announcement before the first image is committed commits the
      first image under its own name before the second starts accumulating. */
  lemma OverlappingImages(a: string, ca: seq<string>, b: string, cb: seq<string>, decode: string -> Option<Bytes>)
    requires !ContainsSentinel(a) && Unpadded(a) && a != ""
    requires !ContainsSentinel(b) && Unpadded(b) && b != ""
    requires forall k :: 0 <= k < |ca| ==> ca[k] != "" && IsBase64Text(ca[k])
    requires forall k :: 0 <= k < |cb| ==> cb[k] != "" && IsBase64Text(cb[k])
    ensures R.Session(Cycle(a, ca) + Cycle(b, cb), decode).saved
         == Committed(a, Concat(ca), decode) + Committed(b, Concat(cb), decode)
  {
    OverlappingRun(R.Init, a, ca, b, cb, decode);
  }

  lemma OverlappingRun(s: R.State, a: string, ca: seq<string>, b: string, cb: seq<string>, decode: string -> Option<Bytes>)
    requires Ready(s) && !R.Pending(s)
    requires !ContainsSentinel(a) && Unpadded(a) && a != ""
    requires !ContainsSentinel(b) && Unpadded(b) && b != ""
    requires forall k :: 0 <= k < |ca| ==> ca[k] != "" && IsBase64Text(ca[k])
    requires forall k :: 0 <= k < |cb| ==> cb[k] != "" && IsBase64Text(cb[k])
    ensures R.Flush(R.Run(s, Cycle(a, ca) + Cycle(b, cb), decode), decode).saved
         == s.saved + Committed(a, Concat(ca), decode) + Committed(b, Concat(cb), decode)
  {
    var u := s.(imageName := Some(a), mainmess := Concat(ca));
    assert R.Flush(s, decode) == s;
    CycleRun(s, a, ca, Cycle(b, cb), decode);
    CycleThenEnd(u, b, cb, decode);
    assert R.Flush(u, decode).saved == s.saved + Committed(a, Concat(ca), decode);
  }

  // ---------------------------------------------------------------------------
  // When the announcement and the file name share one read

  /** The sender writes the announcement and the file name back to back and
      only then waits four seconds, longer than the receiver's three-second
      filename wait. When both frames reach the receiver in one read, the wait
      starts with the name already in the buffer, sees no new read before it
      times out, and the name is thrown away with the buffer. A receiver that
      still holds the previous image's name then gathers the new image's
      chunks under that old name, and the next flush-commit saves the new
      image under it. */
  lemma CoalescedAnnouncementMisfiles(s: R.State, name: string, cs: seq<string>, decode: string -> Option<Bytes>)
    requires Ready(s) && R.HasName(s)
    requires forall k :: 0 <= k < |cs| ==> cs[k] != "" && IsBase64Text(cs[k])
    ensures var t := R.Run(s, [R.Data(ImageToken + Sentinel + name + Sentinel), R.Silence] + ChunkEvents(cs), decode);
      && t.imageName == s.imageName
      && t.mainmess == Concat(cs)
      && R.Flush(t, decode).saved == R.Flush(s, decode).saved + Committed(s.imageName.value, Concat(cs), decode)
  {
    assert ImageToken + Sentinel + (name + Sentinel) == ImageToken + Sentinel + name + Sentinel;
    CoalescedRun(s, name + Sentinel, cs, decode);
  }

  /** The main loop over such a read, the silence and the chunk frames. */
  lemma CoalescedRun(s: R.State, tail: string, cs: seq<string>, decode: string -> Option<Bytes>)
    requires Ready(s) && R.HasName(s)
    requires forall k :: 0 <= k < |cs| ==> cs[k] != "" && IsBase64Text(cs[k])
    ensures R.Run(s, [R.Data(ImageToken + Sentinel + tail), R.Silence] + ChunkEvents(cs), decode)
         == R.Flush(s, decode).(mainmess := Concat(cs))
  {
    var f := R.Flush(s, decode);
    assert f.buffer == "" && f.mainmess == "";
    R.CoalescedAnnouncementLosesName(s, tail, ChunkEvents(cs), decode);
    assert ChunkEvents(cs) + [] == ChunkEvents(cs);
    ChunksReassemble(f, cs, [], decode);
  }
}

=== FILE: receiver.dfy ===
/** The receiver (rcvfinal.py). Each read from the link is appended to a text
    buffer; if the buffer then holds a ".?" terminator, the stripped text before
    the first one is taken as a frame and classified, in this order, as a
    metadata row ("csv," prefix), an image announcement ("image_name"), an image
    file name (ends in ".jpg", under 50 characters) or image data. Image data
    accumulates until a flush-commit decodes it and saves it under the current
    image name. The link is a sequence of events: a read that delivered some
    text, or three seconds passing without one (which only the filename wait
    observes). Base64 decoding is the parameter `decode`. */
module Receiver {
  import opened Common
  import opened Text

  /** An image file written to the received-images folder. */
  datatype Saved = Saved(name: string, data: Bytes)

  /** The session: the receive buffer, the current image name (Python's None or
      a string), the accumulated image text, and the two outputs — rows appended
      to the received CSV file (each followed by a newline) and images saved. */
  datatype State = State(
    buffer: string,
    imageName: Option<string>,
    mainmess: string,
    rows: seq<string>,
    saved: seq<Saved>)

  /** What the link delivers: text from one read, or a three-second silence. */
  datatype Event = Data(text: string) | Silence

  /** How the filename wait ended, the buffer it leaves, and the unread events. */
  datatype Wait = Arrived(name: string, buffer: string, rest: seq<Event>) | TimedOut(buffer: string, rest: seq<Event>)

  const Init: State := State("", None, "", [], [])

  const NameSuffix: string := ".jpg"

  /** A frame this long or longer is never taken for a file name. */
  const NameLimit: nat := 50

  /** Python's truthiness of image_name: set, and not the empty string. */
  predicate HasName(s: State) {
    s.imageName.Some? && s.imageName.value != ""
  }

  /** The guard every flush-commit tests. */
  predicate Pending(s: State) {
    HasName(s) && s.mainmess != ""
  }

  /** Flush-commit: with a name and some data, decode the data, save it when
      decoding succeeds, and clear the data either way; otherwise do nothing. */
  function Flush(s: State, decode: string -> Option<Bytes>): (t: State)
    ensures t.buffer == s.buffer && t.imageName == s.imageName && t.rows == s.rows
    ensures !Pending(s) ==> t == s
    ensures Pending(s) ==> t.mainmess == ""
    ensures Pending(s) && decode(s.mainmess).Some? ==> t.saved == s.saved + [Saved(s.imageName.value, decode(s.mainmess).value)]
    ensures !(Pending(s) && decode(s.mainmess).Some?) ==> t.saved == s.saved
  {
    if Pending(s) then
      var saved := match decode(s.mainmess)
        case Some(bytes) => s.saved + [Saved(s.imageName.value, bytes)]
        case None => s.saved;
      s.(mainmess := "", saved := saved)
    else s
  }

  /** The filename wait: each read is added to the buffer and, as soon as the
      buffer holds a terminator, the stripped text before it is the name. A
      silence, or the end of the stream, ends the wait without a name. */
  function Await(buffer: string, events: seq<Event>): (w: Wait)
    ensures |w.rest| <= |events|
    ensures w.TimedOut? && !ContainsSentinel(buffer) ==> !ContainsSentinel(w.buffer)
    decreases |events|
  {
    if |events| == 0 then TimedOut(buffer, [])
    else match events[0]
      case Silence => TimedOut(buffer, events[1..])
      case Data(text) =>
        var grown := buffer + text;
        match SplitFrame(grown)
        case Some((head, tail)) => Arrived(Strip(head), tail, events[1..])
        case None => Await(grown, events[1..])
  }

  /** Classify one frame `msg`; `s.buffer` already holds what followed the frame
      in the buffer. Returns the new state and the events not yet consumed. */
  function Dispatch(s: State, msg: string, events: seq<Event>, decode: string -> Option<Bytes>): (r: (State, seq<Event>))
    ensures |r.1| <= |events|
    ensures r.0.buffer == "" || !HasName(r.0)
  {
    if StartsWith(msg, CsvPrefix) then
      (s.(buffer := "", rows := s.rows + [msg[|CsvPrefix|..]]), events)
    else if msg == ImageToken then
      var f := Flush(s, decode);
      var w := Await(f.buffer, events);
      var g := if w.Arrived? then f.(imageName := Some(w.name)) else f;
      if HasName(g) then (g.(buffer := ""), w.rest)
      else (g.(buffer := w.buffer), w.rest)
    else if EndsWith(msg, NameSuffix) && |msg| < NameLimit then
      (Flush(s, decode).(buffer := "", imageName := Some(msg)), events)
    else
      (s.(buffer := "", mainmess := s.mainmess + msg), events)
  }

  /** One pass of the main loop: consume the next event. */
  function Step(s: State, events: seq<Event>, decode: string -> Option<Bytes>): (r: (State, seq<Event>))
    requires |events| > 0
    ensures |r.1| < |events|
  {
    match events[0]
    case Silence => (s, events[1..])
    case Data(text) =>
      var grown := s.buffer + text;
      match SplitFrame(grown)
      case None => (s.(buffer := grown), events[1..])
      case Some((head, tail)) => Dispatch(s.(buffer := tail), Strip(head), events[1..], decode)
  }

  /** The main loop until the stream ends. */
  function Run(s: State, events: seq<Event>, decode: string -> Option<Bytes>): State
    decreases |events|
  {
    if |events| == 0 then s
    else
      var r := Step(s, events, decode);
      Run(r.0, r.1, decode)
  }

  /** A whole session: the main loop, then the one final flush-commit at exit. */
  function Session(events: seq<Event>, decode: string -> Option<Bytes>): (r: State)
    ensures !Pending(r)
  {
    Flush(Run(Init, events, decode), decode)
  }

  // ---------------------------------------------------------------------------
  // Properties of one read

  /** A read that leaves no terminator in the buffer only grows the buffer. */
  lemma ReadWithoutFrame(s: State, text: string, more: seq<Event>, decode: string -> Option<Bytes>)
    requires !ContainsSentinel(s.buffer + text)
    ensures Step(s, [Data(text)] + more, decode) == (s.(buffer := s.buffer + text), more)
  {
    assert ([Data(text)] + more)[1..] == more;
  }

  /** A read that completes a frame classifies the stripped text before the
      first terminator, with what follows it left in the buffer. */
  lemma ReadWithFrame(s: State, text: string, head: string, tail: string, more: seq<Event>, decode: string -> Option<Bytes>)
    requires s.buffer + text == head + Sentinel + tail
    requires !ContainsSentinel(head)
    ensures Step(s, [Data(text)] + more, decode) == Dispatch(s.(buffer := tail), Strip(head), more, decode)
  {
    SplitFrameOfFrame(head, tail);
    assert ([Data(text)] + more)[1..] == more;
  }

  /** One frame per read: when a read completes a frame that is not the
      announcement, whatever followed the frame's terminator in that read is
      thrown away, so the read acts exactly as if only the frame had arrived
      into an empty buffer. */
  lemma FrameTailIsDropped(s: State, text: string, head: string, tail: string, more: seq<Event>, decode: string -> Option<Bytes>)
    requires s.buffer + text == head + Sentinel + tail
    requires !ContainsSentinel(head) && Strip(head) != ImageToken
    ensures Step(s, [Data(text)] + more, decode) == Step(s.(buffer := ""), [Data(head + Sentinel)] + more, decode)
    ensures Step(s, [Data(text)] + more, decode).0.buffer == ""
  {
    ReadWithFrame(s, text, head, tail, more, decode);
    FrameAlone(s.(buffer := ""), head, more, decode);
    DispatchIgnoresBuffer(s.(buffer := tail), Strip(head), more, decode);
    assert s.(buffer := tail).(buffer := "") == s.(buffer := "");
  }

  /** A frame that arrives alone, into an empty buffer, is classified with an empty buffer. */
  lemma FrameAlone(s: State, head: string, more: seq<Event>, decode: string -> Option<Bytes>)
    requires s.buffer == "" && !ContainsSentinel(head)
    ensures Step(s, [Data(head + Sentinel)] + more, decode) == Dispatch(s, Strip(head), more, decode)
  {
    assert s.buffer + (head + Sentinel) == head + Sentinel + "";
    ReadWithFrame(s, head + Sentinel, head, "", more, decode);
  }

  /** Every frame but the announcement ends with the buffer cleared, so what
      the buffer held does not matter, and no further event is consumed. */
  lemma DispatchIgnoresBuffer(s: State, msg: string, events: seq<Event>, decode: string -> Option<Bytes>)
    requires msg != ImageToken
    ensures Dispatch(s, msg, events, decode) == Dispatch(s.(buffer := ""), msg, events, decode)
    ensures Dispatch(s, msg, events, decode).0.buffer == ""
    ensures Dispatch(s, msg, events, decode).1 == events
  {
    FlushKeepsBuffer(s, "", decode);
  }

  /** The flush-commit does not look at the buffer. */
  lemma FlushKeepsBuffer(s: State, buffer: string, decode: string -> Option<Bytes>)
    ensures Flush(s.(buffer := buffer), decode) == Flush(s, decode).(buffer := buffer)
  {
  }



  /** The read that completes the token hands what followed it to the token's handling. */
  lemma TokenRead(s: State, tail: string, events: seq<Event>, decode: string -> Option<Bytes>)
    requires s.buffer == ""
    ensures Step(s, [Data(ImageToken + Sentinel + tail)] + events, decode) == Dispatch(s.(buffer := tail), ImageToken, events, decode)
  {
    TokenShape();
    ReadWithFrame(s, ImageToken + Sentinel + tail, ImageToken, tail, events, decode);
  }



  /** The announcement is the exception: what followed the token in its read
      stays in the buffer for the filename wait. When that already holds a
      complete frame, the frame is taken as the name as soon as any further
      read arrives within the wait, and that read's own text is then thrown
      away with the buffer. */
  lemma TokenTailFeedsWait(s: State, tail: string, text: string, more: seq<Event>, decode: string -> Option<Bytes>)
    requires s.buffer == "" && SplitFrame(tail).Some? && Strip(SplitFrame(tail).value.0) != ""
    ensures Step(s, [Data(ImageToken + Sentinel + tail)] + ([Data(text)] + more), decode)
      == (Flush(s, decode).(imageName := Some(Strip(SplitFrame(tail).value.0))), more)
  {
    TokenRead(s, tail, [Data(text)] + more, decode);
    WaitTakesBufferedName(s.(buffer := tail), text, more, decode);
    FlushKeepsBuffer(s, tail, decode);
  }

  /** The main loop, after such a read, carries on from whatever the frame's
      classification leaves. */
  lemma RunAfterFrame(s: State, text: string, head: string, tail: string, more: seq<Event>, decode: string -> Option<Bytes>)
    requires s.buffer + text == head + Sentinel + tail
    requires !ContainsSentinel(head)
    ensures var d := Dispatch(s.(buffer := tail), Strip(head), more, decode);
      Run(s, [Data(text)] + more, decode) == Run(d.0, d.1, decode)
  {
    ReadWithFrame(s, text, head, tail, more, decode);
  }

  /** The reads that deliver the given pieces of text, one piece per read. */
  function Reads(pieces: seq<string>): seq<Event>
    decreases |pieces|
  {
    if |pieces| == 0 then [] else [Data(pieces[0])] + Reads(pieces[1..])
  }

  /** A proper prefix of a frame, short of its final '?', holds no terminator. */
  lemma FramePrefixHasNoSentinel(head: string, n: nat)
    requires !ContainsSentinel(head) && n <= |head| + 1
    ensures !ContainsSentinel((head + Sentinel)[..n])
  {
    var f := head + Sentinel;
    forall i | 0 <= i < n ensures !SentinelAt(f[..n], i) {
      if i + 1 < |head| {
        assert !SentinelAt(head, i);
      }
    }
  }

  lemma {:induction false} ConcatEndsWithLast(pieces: seq<string>)
    requires |pieces| > 0
    ensures |Concat(pieces)| >= |pieces[|pieces| - 1]|
    decreases |pieces|
  {
    if |pieces| > 1 {
      ConcatEndsWithLast(pieces[1..]);
    }
  }

  /** A frame that arrives cut into pieces over several reads is classified
      exactly as if it had arrived in one read: the earlier pieces only grow
      the buffer, and the read that brings the final '?' completes the frame. */
  lemma {:induction false} FragmentedFrame(s: State, pieces: seq<string>, head: string, more: seq<Event>, decode: string -> Option<Bytes>)
    requires |pieces| > 0 && pieces[|pieces| - 1] != ""
    requires s.buffer + Concat(pieces) == head + Sentinel
    requires !ContainsSentinel(head)
    ensures var d := Dispatch(s.(buffer := ""), Strip(head), more, decode);
      Run(s, Reads(pieces) + more, decode) == Run(d.0, d.1, decode)
    decreases |pieces|
  {
    var p, rest := pieces[0], pieces[1..];
    assert Reads(pieces) + more == [Data(p)] + (Reads(rest) + more) by {
      AppendAssoc([Data(p)], Reads(rest), more);
    }
    if |rest| == 0 {
      assert Concat(pieces) == p;
      assert s.buffer + p == head + Sentinel + "";
      RunAfterFrame(s, p, head, "", more, decode);
    } else {
      var s1 := s.(buffer := s.buffer + p);
      assert s1.buffer + Concat(rest) == head + Sentinel by {
        AppendAssoc(s.buffer, p, Concat(rest));
      }
      PieceGrowsBuffer(s, p, rest, head, more, decode);
      FragmentedFrame(s1, rest, head, more, decode);
      assert s1.(buffer := "") == s.(buffer := "");
    }
  }

  /** A piece after which more of the frame is still to come only grows the buffer. */
  lemma PieceGrowsBuffer(s: State, p: string, rest: seq<string>, head: string, more: seq<Event>, decode: string -> Option<Bytes>)
    requires |rest| > 0 && rest[|rest| - 1] != ""
    requires s.buffer + p + Concat(rest) == head + Sentinel
    requires !ContainsSentinel(head)
    ensures Run(s, [Data(p)] + (Reads(rest) + more), decode) == Run(s.(buffer := s.buffer + p), Reads(rest) + more, decode)
  {
    var grown := s.buffer + p;
    ConcatEndsWithLast(rest);
    assert !ContainsSentinel(grown) by {
      assert grown == (head + Sentinel)[..|grown|];
      FramePrefixHasNoSentinel(head, |grown|);
    }
    ReadWithoutFrame(s, p, Reads(rest) + more, decode);
  }

  /** The announcement token is not a row, not a file name, has no padding and no terminator. */
  lemma TokenShape()
    ensures !StartsWith(ImageToken, CsvPrefix) && !EndsWith(ImageToken, NameSuffix)
    ensures Unpadded(ImageToken) && !ContainsSentinel(ImageToken)
  {
    assert ImageToken[0] == 'i' && CsvPrefix[0] == 'c';
    assert ImageToken[|ImageToken| - 4] == 'n' && NameSuffix[0] == '.';
    forall j | 0 <= j < |ImageToken| ensures !SentinelAt(ImageToken, j) {
      assert ImageToken[j] != '.';
    }
  }

  /** At most one frame is classified per read: whatever followed the first
      frame in the same read, a second complete frame included, is discarded
      with the rest of the buffer. */
  lemma SecondFrameInReadIsLost(row: string, tail: string, decode: string -> Option<Bytes>)
    requires |row| > 0 && !IsSpace(row[|row| - 1])
    requires forall j :: 0 <= j < |row| ==> row[j] != '.'
    ensures Step(Init, [Data(CsvPrefix + row + Sentinel + tail)], decode) == (Init.(rows := [row]), [])
  {
    var head := CsvPrefix + row;
    var text := head + Sentinel + tail;
    RowFrameShape(head, row);
    calc {
      Step(Init, [Data(text)], decode);
      { assert [Data(text)] == [Data(text)] + [];
        assert Init.buffer + text == head + Sentinel + tail; }
      Step(Init, [Data(text)] + [], decode);
      { ReadWithFrame(Init, text, head, tail, [], decode); }
      Dispatch(Init.(buffer := tail), head, [], decode);
      { MetadataFrameAppendsRow(Init.(buffer := tail), head, [], decode); }
      (Init.(buffer := tail).(buffer := "", rows := Init.rows + [head[4..]]), []);
      { assert Init.rows + [head[4..]] == [row]; }
      (Init.(rows := [row]), []);
    }
  }

  /** "csv," followed by a short row text with no dot at all is a clean row frame. */
  lemma RowFrameShape(head: string, row: string)
    requires head == CsvPrefix + row && |row| > 0 && !IsSpace(row[|row| - 1])
    requires forall j :: 0 <= j < |row| ==> row[j] != '.'
    ensures !ContainsSentinel(head) && Strip(head) == head
    ensures StartsWith(head, CsvPrefix) && head[4..] == row
  {
    forall j | 0 <= j < |head| ensures !SentinelAt(head, j) {
      if j >= 4 {
        assert head[j] == row[j - 4];
      }
    }
    assert head[0] == 'c';
    assert head[..4] == CsvPrefix;
  }

  /** A "csv," frame appends the text after the prefix as one row and touches
      neither the image name, nor the image data, nor the saved images. */
  lemma MetadataFrameAppendsRow(s: State, msg: string, events: seq<Event>, decode: string -> Option<Bytes>)
    requires StartsWith(msg, CsvPrefix)
    ensures Dispatch(s, msg, events, decode) == (s.(buffer := "", rows := s.rows + [msg[4..]]), events)
  {
  }

  /** The "csv," rule is tested first: a row whose text ends in ".jpg" is still a row. */
  lemma MetadataBeatsFileName(s: State, events: seq<Event>, decode: string -> Option<Bytes>)
    ensures Dispatch(s, "csv,x.jpg", events, decode).0.rows == s.rows + ["x.jpg"]
    ensures Dispatch(s, "csv,x.jpg", events, decode).0.imageName == s.imageName
  {
    assert StartsWith("csv,x.jpg", CsvPrefix);
    assert "csv,x.jpg"[4..] == "x.jpg";
  }

  /** A short ".jpg" frame commits the pending image, then becomes the image name. */
  lemma FileNameFrame(s: State, msg: string, events: seq<Event>, decode: string -> Option<Bytes>)
    requires !StartsWith(msg, CsvPrefix) && EndsWith(msg, NameSuffix) && |msg| < NameLimit
    ensures var t := Dispatch(s, msg, events, decode).0;
      && t.imageName == Some(msg)
      && t.saved == Flush(s, decode).saved
      && t.mainmess == Flush(s, decode).mainmess
      && t.rows == s.rows && t.buffer == ""
    ensures Dispatch(s, msg, events, decode) == (Flush(s, decode).(buffer := "", imageName := Some(msg)), events)
  {
    assert msg != ImageToken by {
      assert ImageToken[|ImageToken| - 4..] != NameSuffix;
    }
  }

  /** Any frame that is not a row, the announcement or a short ".jpg" name,
      including a ".jpg" frame of 50 characters or more, is image data. */
  lemma DataFrameAccumulates(s: State, msg: string, events: seq<Event>, decode: string -> Option<Bytes>)
    requires !StartsWith(msg, CsvPrefix) && msg != ImageToken
    requires !EndsWith(msg, NameSuffix) || |msg| >= NameLimit
    ensures Dispatch(s, msg, events, decode) == (s.(buffer := "", mainmess := s.mainmess + msg), events)
  {
  }

  /** A filename wait that times out keeps the previous image name; only when no
      name was held does the read leave the buffer as it was (the `continue`). */
  lemma TimedOutWaitKeepsName(s: State, events: seq<Event>, decode: string -> Option<Bytes>)
    requires Await(s.buffer, events).TimedOut?
    ensures var t := Dispatch(s, ImageToken, events, decode).0;
      && t.imageName == s.imageName
      && t.saved == Flush(s, decode).saved
      && t.mainmess == Flush(s, decode).mainmess
      && t.rows == s.rows
      && (HasName(s) ==> t.buffer == "")
      && (!HasName(s) ==> t.buffer == Await(s.buffer, events).buffer)
    ensures Dispatch(s, ImageToken, events, decode).1 == Await(s.buffer, events).rest
  {
    TokenShape();
  }

  /** A wait that receives a name stores it, even one that is empty after
      stripping, after the pending image has been committed under the old name.
      A blank name takes the `continue`, which keeps what the wait left buffered. */
  lemma ArrivedNameIsStored(s: State, events: seq<Event>, decode: string -> Option<Bytes>)
    requires Await(s.buffer, events).Arrived?
    ensures var w := Await(s.buffer, events);
      var r := Dispatch(s, ImageToken, events, decode);
      && r.0.imageName == Some(w.name)
      && r.0.saved == Flush(s, decode).saved
      && r.0.mainmess == Flush(s, decode).mainmess
      && r.0.rows == s.rows
      && r.1 == w.rest
      && (w.name != "" ==> r.0.buffer == "")
      && (w.name == "" ==> r.0.buffer == w.buffer)
  {
    TokenShape();
  }

  /** A complete frame already in the buffer when the token is handled is
      taken as the name by the wait's first read, after the commit, and the
      buffer is then cleared. */
  lemma WaitTakesBufferedName(t: State, text: string, more: seq<Event>, decode: string -> Option<Bytes>)
    requires SplitFrame(t.buffer).Some? && Strip(SplitFrame(t.buffer).value.0) != ""
    ensures Dispatch(t, ImageToken, [Data(text)] + more, decode)
      == (Flush(t, decode).(buffer := "", imageName := Some(Strip(SplitFrame(t.buffer).value.0))), more)
  {
    WaitReadsBufferedName(t.buffer, text, more);
    ArrivedNameIsStored(t, [Data(text)] + more, decode);
  }

  /** The wait's first read completes at the frame already in the buffer: the
      name is that frame's stripped text, and the rest of the buffer and the
      read are kept. */
  lemma WaitReadsBufferedName(buffer: string, text: string, more: seq<Event>)
    requires SplitFrame(buffer).Some?
    ensures Await(buffer, [Data(text)] + more)
      == Arrived(Strip(SplitFrame(buffer).value.0), SplitFrame(buffer).value.1 + text, more)
  {
    var events := [Data(text)] + more;
    var name, rest := SplitFrame(buffer).value.0, SplitFrame(buffer).value.1;
    assert buffer + text == name + Sentinel + (rest + text);
    SplitFrameOfFrame(name, rest + text);
    assert events[0] == Data(text) && events[1..] == more;
  }

  /** A second flush-commit right after one commits nothing. */
  lemma FlushTwiceIsOnce(s: State, decode: string -> Option<Bytes>)
    ensures Flush(Flush(s, decode), decode) == Flush(s, decode)
  {
  }

  /** The announcement and the file name sent in one burst, with the wait then
      hearing nothing: the name frame is discarded with the buffer, the wait
      times out, and the previous image name stays. */
  lemma CoalescedAnnouncementLosesName(s: State, tail: string, more: seq<Event>, decode: string -> Option<Bytes>)
    requires s.buffer == "" && HasName(s)
    ensures Run(s, [Data(ImageToken + Sentinel + tail), Silence] + more, decode) == Run(Flush(s, decode), more, decode)
    ensures Flush(s, decode).imageName == s.imageName
  {
    var text := ImageToken + Sentinel + tail;
    TokenShape();
    assert [Data(text), Silence] + more == [Data(text)] + ([Silence] + more);
    assert s.buffer + text == ImageToken + Sentinel + tail;
    RunAfterFrame(s, text, ImageToken, tail, [Silence] + more, decode);
    var f := Flush(s.(buffer := tail), decode);
    assert ([Silence] + more)[1..] == more;
    assert Await(f.buffer, [Silence] + more) == TimedOut(tail, more);
    assert Dispatch(s.(buffer := tail), ImageToken, [Silence] + more, decode) == (f.(buffer := ""), more);
    assert f.(buffer := "") == Flush(s, decode);
  }

  /** The same burst with no name held: the wait times out and the `continue`
      keeps what followed the token in the buffer, so the next read completes
      the name frame waiting there. That read's own text, a chunk frame say,
      is thrown away, and the name is set with nothing accumulated. */
  lemma UnnamedCoalescedAnnouncementDropsRead(s: State, tail: string, text: string, more: seq<Event>, decode: string -> Option<Bytes>)
    requires s.buffer == "" && !HasName(s) && SplitFrame(tail).Some?
    requires var name := Strip(SplitFrame(tail).value.0);
      !StartsWith(name, CsvPrefix) && EndsWith(name, NameSuffix) && |name| < NameLimit
    ensures var first := Step(s, [Data(ImageToken + Sentinel + tail), Silence, Data(text)] + more, decode);
      && first == (s.(buffer := tail), [Data(text)] + more)
      && Step(first.0, first.1, decode) == (s.(imageName := Some(Strip(SplitFrame(tail).value.0))), more)
    ensures Run(s, [Data(ImageToken + Sentinel + tail), Silence, Data(text)] + more, decode)
      == Run(s.(imageName := Some(Strip(SplitFrame(tail).value.0))), more, decode)
  {
    var next := [Data(text)] + more;
    var named := s.(imageName := Some(Strip(SplitFrame(tail).value.0)));
    BurstEvents(tail, text, more);
    UnnamedTokenTimesOut(s, tail, next, decode);
    BufferedNameFrame(s.(buffer := tail), text, more, decode);
    RunStep(s, [Data(ImageToken + Sentinel + tail)] + ([Silence] + next), decode);
    RunStep(s.(buffer := tail), next, decode);
  }

  /** The burst's events, regrouped as the token's read and what follows it. */
  lemma BurstEvents(tail: string, text: string, more: seq<Event>)
    ensures [Data(ImageToken + Sentinel + tail), Silence, Data(text)] + more
      == [Data(ImageToken + Sentinel + tail)] + ([Silence] + ([Data(text)] + more))
  {
  }

  /** The main loop takes one step and carries on from where the step left it. */
  lemma RunStep(s: State, events: seq<Event>, decode: string -> Option<Bytes>)
    requires |events| > 0
    ensures Run(s, events, decode) == Run(Step(s, events, decode).0, Step(s, events, decode).1, decode)
  {
  }

  /** With no name held, the token followed by a silence leaves what followed
      the token in the buffer. */
  lemma UnnamedTokenTimesOut(s: State, tail: string, next: seq<Event>, decode: string -> Option<Bytes>)
    requires s.buffer == "" && !HasName(s)
    ensures Step(s, [Data(ImageToken + Sentinel + tail)] + ([Silence] + next), decode) == (s.(buffer := tail), next)
  {
    var waiting := [Silence] + next;
    var t := s.(buffer := tail);
    TokenRead(s, tail, waiting, decode);
    assert Await(tail, waiting) == TimedOut(tail, next) by {
      assert waiting[0] == Silence && waiting[1..] == next;
    }
    TimedOutWaitKeepsName(t, waiting, decode);
  }

  /** A short `.jpg` frame waiting in the buffer is completed by the next read,
      whose own text is then thrown away. */
  lemma BufferedNameFrame(t: State, text: string, more: seq<Event>, decode: string -> Option<Bytes>)
    requires !HasName(t) && SplitFrame(t.buffer).Some?
    requires var name := Strip(SplitFrame(t.buffer).value.0);
      !StartsWith(name, CsvPrefix) && EndsWith(name, NameSuffix) && |name| < NameLimit
    ensures Step(t, [Data(text)] + more, decode)
      == (t.(buffer := "", imageName := Some(Strip(SplitFrame(t.buffer).value.0))), more)
  {
    var u := t.(buffer := SplitFrame(t.buffer).value.1 + text);
    ReadCompletesBufferedFrame(t, text, more, decode);
    FileNameFrame(u, Strip(SplitFrame(t.buffer).value.0), more, decode);
    FlushWithoutName(u, decode);
  }

  /** A read completing a frame begun in the buffer classifies that frame. */
  lemma ReadCompletesBufferedFrame(t: State, text: string, more: seq<Event>, decode: string -> Option<Bytes>)
    requires SplitFrame(t.buffer).Some?
    ensures Step(t, [Data(text)] + more, decode)
      == Dispatch(t.(buffer := SplitFrame(t.buffer).value.1 + text), Strip(SplitFrame(t.buffer).value.0), more, decode)
  {
    var name, rest := SplitFrame(t.buffer).value.0, SplitFrame(t.buffer).value.1;
    assert t.buffer + text == name + Sentinel + (rest + text);
    ReadWithFrame(t, text, name, rest + text, more, decode);
  }

  /** With no name held there is nothing to commit. */
  lemma FlushWithoutName(s: State, decode: string -> Option<Bytes>)
    requires !HasName(s)
    ensures Flush(s, decode) == s
  {
  }
}

=== FILE: sender.dfy ===
/** The sender (sendimgcvfinal.py). It reads the metadata table, loads the
    sent-image ledger once, and for every row writes a metadata frame; when the
    row's image is eligible it then writes the "image_name" announcement, the
    file name, and the image's Base64 text cut into chunk frames, and only then
    records the name in the ledger. Its observable behaviour is the sequence of
    frames written to the link interleaved with the ledger appends. */
module Sender {
  import opened Common
  import opened Text
  import Chunking
  import Ledger

  /** One record of the metadata table, as the CSV reader yields it. */
  type Row = seq<string>

  /** What the image folder holds under a name; the existence test is true of both. */
  datatype Entry = Directory | Regular(data: Bytes)

  /** One observable action of the sender, in program order. */
  datatype Effect = Write(frame: string) | MarkSent(name: string)

  /** Exceptions the sender does not catch; each ends the run where it is raised. */
  datatype Abort =
    | EmptyTable                // the header cannot be skipped: the table file is empty
    | BadRow(width: nat)        // a row that does not unpack into exactly four fields
    | Unreadable(name: string)  // the image name exists but is a directory, not a file

  /** What a stretch of the run did, and whether it was cut short. */
  datatype Output = Output(effects: seq<Effect>, abort: Option<Abort>)

  /** A whole run: its effects, how it ended, and the ledger file it leaves behind. */
  datatype Run = Run(effects: seq<Effect>, abort: Option<Abort>, ledger: Option<string>)

  /** Every write carries one payload followed by the terminator. */
  function Frame(payload: string): string { payload + Sentinel }

  function MetadataFrame(row: Row): string { Frame(CsvPrefix + Join(row, ",")) }

  /** The image reference spells "none" up to surrounding whitespace and case. */
  predicate IsNoneRef(name: string) { Lower(Strip(name)) == "none" }

  /** The image of a row is sent iff none of the three skip rules applies. */
  predicate Eligible(name: string, sent: set<string>, store: map<string, Entry>) {
    !IsNoneRef(name) && name !in sent && name in store
  }

  /** The frames among the effects, in order. */
  function Frames(effects: seq<Effect>): seq<string>
    decreases |effects|
  {
    if |effects| == 0 then []
    else if effects[0].Write? then [effects[0].frame] + Frames(effects[1..])
    else Frames(effects[1..])
  }

  /** The names appended to the ledger, in order. */
  function Marked(effects: seq<Effect>): seq<string>
    decreases |effects|
  {
    if |effects| == 0 then []
    else if effects[0].MarkSent? then [effects[0].name] + Marked(effects[1..])
    else Marked(effects[1..])
  }

  /** One write per chunk payload, in order. */
  function ChunkWrites(chunks: seq<string>): (r: seq<Effect>)
    ensures |r| == |chunks|
    ensures forall k :: 0 <= k < |r| ==> r[k] == Write(Frame(chunks[k]))
    decreases |chunks|
  {
    if |chunks| == 0 then [] else [Write(Frame(chunks[0]))] + ChunkWrites(chunks[1..])
  }

  /** The frames of one chunked image text. */
  function ChunkFrames(msg: string): seq<string> {
    Frames(ChunkWrites(Chunking.Chunks(msg)))
  }

  /** One iteration of the per-row loop. */
  function SendRow(row: Row, sent: set<string>, store: map<string, Entry>, encode: Bytes -> string): (r: Output)
    ensures |row| != 4 <==> r.abort == Some(BadRow(|row|))
    ensures |row| != 4 ==> r.effects == []
    ensures |row| == 4 ==> |r.effects| > 0 && r.effects[0] == Write(MetadataFrame(row))
    ensures |row| == 4 && !Eligible(row[3], sent, store) ==> r == Output([Write(MetadataFrame(row))], None)
  {
    if |row| != 4 then Output([], Some(BadRow(|row|)))
    else
      var name := row[3];
      if IsNoneRef(name) || name in sent then Output([Write(MetadataFrame(row))], None)
      else if name !in store then Output([Write(MetadataFrame(row))], None)
      else
        var announced := [Write(MetadataFrame(row)), Write(Frame(ImageToken)), Write(Frame(name))];
        match store[name]
        case Directory => Output(announced, Some(Unreadable(name)))
        case Regular(data) =>
          Output(announced + ChunkWrites(Chunking.Chunks(encode(data))) + [MarkSent(name)], None)
  }

  /** The per-row loop: rows oldest first, against one ledger snapshot `sent`
      that the loop never updates. */
  function SendRows(rows: seq<Row>, sent: set<string>, store: map<string, Entry>, encode: Bytes -> string): Output
    decreases |rows|
  {
    if |rows| == 0 then Output([], None)
    else
      var first := SendRow(rows[0], sent, store, encode);
      if first.abort.Some? then first
      else
        var rest := SendRows(rows[1..], sent, store, encode);
        Output(first.effects + rest.effects, rest.abort)
  }

  /** The rows of the metadata table after its header; none when the file is missing. */
  function TableRows(table: Option<seq<Row>>): (r: Result<seq<Row>, Abort>)
    ensures r.Failure? <==> table == Some([])
    ensures r.Failure? ==> r.error == EmptyTable
    ensures r.Success? && table.None? ==> r.value == []
    ensures r.Success? && table.Some? ==> [table.value[0]] + r.value == table.value
  {
    match table
    case None => Success([])
    case Some(records) => if |records| == 0 then Failure(EmptyTable) else Success(records[1..])
  }

  /** The whole program once the link is open: read the table, load the ledger,
      run the loop, and leave the ledger with every marked name appended. */
  function RunSender(table: Option<seq<Row>>, ledger: Option<string>, store: map<string, Entry>, encode: Bytes -> string): (r: Run)
    ensures r.ledger == Ledger.AppendAll(ledger, Marked(r.effects))
    ensures table == Some([]) ==> r == Run([], Some(EmptyTable), ledger)
  {
    match TableRows(table)
    case Failure(e) => Run([], Some(e), ledger)
    case Success(rows) =>
      var out := SendRows(rows, Ledger.Load(ledger), store, encode);
      Run(out.effects, out.abort, Ledger.AppendAll(ledger, Marked(out.effects)))
  }

  // ---------------------------------------------------------------------------
  // Properties

  lemma FramesAppend(a: seq<Effect>, b: seq<Effect>)
    ensures Frames(a + b) == Frames(a) + Frames(b)
    ensures Marked(a + b) == Marked(a) + Marked(b)
  {
    FramesOnlyAppend(a, b);
    MarkedAppend(a, b);
  }

  lemma {:induction false} FramesOnlyAppend(a: seq<Effect>, b: seq<Effect>)
    ensures Frames(a + b) == Frames(a) + Frames(b)
    decreases |a|
  {
    if |a| == 0 {
      assert a + b == b;
    } else {
      assert (a + b)[0] == a[0] && (a + b)[1..] == a[1..] + b;
      FramesOnlyAppend(a[1..], b);
    }
  }

  lemma {:induction false} MarkedAppend(a: seq<Effect>, b: seq<Effect>)
    ensures Marked(a + b) == Marked(a) + Marked(b)
    decreases |a|
  {
    if |a| == 0 {
      assert a + b == b;
    } else {
      assert (a + b)[0] == a[0] && (a + b)[1..] == a[1..] + b;
      MarkedAppend(a[1..], b);
    }
  }

  lemma {:induction false} ChunkWritesMarkNothing(chunks: seq<string>)
    ensures Marked(ChunkWrites(chunks)) == []
    decreases |chunks|
  {
    if |chunks| > 0 {
      ChunkWritesMarkNothing(chunks[1..]);
    }
  }

  /** The chunk frames of an image text carry its chunks, which concatenate
      back to the whole text. */
  lemma {:induction false} ChunkFramesCarryText(chunks: seq<string>)
    ensures Frames(ChunkWrites(chunks)) == seq(|chunks|, k requires 0 <= k < |chunks| => Frame(chunks[k]))
    decreases |chunks|
  {
    if |chunks| > 0 {
      ChunkFramesCarryText(chunks[1..]);
    }
  }

  /** An eligible image is sent as the announcement, its name, then every chunk
      frame; the ledger append is the very last effect of the row, after the
      final chunk. */
  lemma EligibleRowEffects(row: Row, sent: set<string>, store: map<string, Entry>, encode: Bytes -> string)
    requires |row| == 4 && Eligible(row[3], sent, store) && store[row[3]].Regular?
    ensures var r := SendRow(row, sent, store, encode);
      var msg := encode(store[row[3]].data);
      && r.abort.None?
      && Frames(r.effects) == [MetadataFrame(row), Frame(ImageToken), Frame(row[3])] + ChunkFrames(msg)
      && Marked(r.effects) == [row[3]]
      && r.effects[|r.effects| - 1] == MarkSent(row[3])
      && Marked(r.effects[..|r.effects| - 1]) == []
  {
    var name := row[3];
    var msg := encode(store[name].data);
    var body := [Write(MetadataFrame(row)), Write(Frame(ImageToken)), Write(Frame(name))] + ChunkWrites(Chunking.Chunks(msg));
    assert SendRow(row, sent, store, encode) == Output(body + [MarkSent(name)], None);
    ImageEffects(row, msg);
  }

  /** The frames and ledger appends of a row that sends the image text `msg`. */
  lemma ImageEffects(row: Row, msg: string)
    requires |row| == 4
    ensures var body := [Write(MetadataFrame(row)), Write(Frame(ImageToken)), Write(Frame(row[3]))] + ChunkWrites(Chunking.Chunks(msg));
      var effects := body + [MarkSent(row[3])];
      && Frames(effects) == [MetadataFrame(row), Frame(ImageToken), Frame(row[3])] + ChunkFrames(msg)
      && Marked(effects) == [row[3]]
      && effects[..|effects| - 1] == body
      && Marked(body) == []
  {
    var name := row[3];
    var head := [Write(MetadataFrame(row)), Write(Frame(ImageToken)), Write(Frame(name))];
    var chunks := ChunkWrites(Chunking.Chunks(msg));
    var body := head + chunks;
    assert (body + [MarkSent(name)])[..|body|] == body;
    assert Frames(body) == [MetadataFrame(row), Frame(ImageToken), Frame(name)] + ChunkFrames(msg) && Marked(body) == [] by {
      FramesAppend(head, chunks);
      HeadFrames(row);
      ChunkWritesMarkNothing(Chunking.Chunks(msg));
    }
    assert Frames(body + [MarkSent(name)]) == Frames(body) && Marked(body + [MarkSent(name)]) == [name] by {
      FramesAppend(body, [MarkSent(name)]);
      assert [MarkSent(name)][1..] == [];
      assert Frames([MarkSent(name)]) == [] && Marked([MarkSent(name)]) == [name];
    }
  }

  lemma HeadFrames(row: Row)
    requires |row| == 4
    ensures var head := [Write(MetadataFrame(row)), Write(Frame(ImageToken)), Write(Frame(row[3]))];
      Frames(head) == [MetadataFrame(row), Frame(ImageToken), Frame(row[3])] && Marked(head) == []
  {
    var a, b, c := Write(MetadataFrame(row)), Write(Frame(ImageToken)), Write(Frame(row[3]));
    assert [a, b, c] == [a] + [b, c];
    assert [b, c] == [b] + [c];
    FramesAppend([a], [b, c]);
    FramesAppend([b], [c]);
    assert Frames([a]) == [a.frame] && Marked([a]) == [] by { assert [a][1..] == []; }
    assert Frames([b]) == [b.frame] && Marked([b]) == [] by { assert [b][1..] == []; }
    assert Frames([c]) == [c.frame] && Marked([c]) == [] by { assert [c][1..] == []; }
  }

  /** A row marks a name exactly when its image was eligible and readable. */
  lemma RowMarksIffSent(row: Row, sent: set<string>, store: map<string, Entry>, encode: Bytes -> string)
    ensures var r := SendRow(row, sent, store, encode);
      Marked(r.effects) == (if |row| == 4 && Eligible(row[3], sent, store) && store[row[3]].Regular? then [row[3]] else [])
  {
    var r := SendRow(row, sent, store, encode);
    if |row| == 4 && Eligible(row[3], sent, store) {
      if store[row[3]].Regular? {
        EligibleRowEffects(row, sent, store, encode);
      } else {
        var head := [Write(MetadataFrame(row)), Write(Frame(ImageToken)), Write(Frame(row[3]))];
        assert r.effects == head;
        HeadFrames(row);
      }
    }
  }

  /** The ledger snapshot is never refreshed during a run: the rows after a
      completed prefix are sent exactly as they would be on their own. */
  lemma {:induction false} SendRowsAppend(a: seq<Row>, b: seq<Row>, sent: set<string>, store: map<string, Entry>, encode: Bytes -> string)
    requires SendRows(a, sent, store, encode).abort.None?
    ensures SendRows(a + b, sent, store, encode)
         == Output(SendRows(a, sent, store, encode).effects + SendRows(b, sent, store, encode).effects,
                   SendRows(b, sent, store, encode).abort)
    decreases |a|
  {
    if |a| == 0 {
      assert a + b == b;
    } else {
      var first := SendRow(a[0], sent, store, encode);
      assert first.abort.None?;
      var restA := SendRows(a[1..], sent, store, encode);
      var restB := SendRows(b, sent, store, encode);
      SendRowsAppend(a[1..], b, sent, store, encode);
      assert a + b == [a[0]] + (a[1..] + b);
      SendRowsCons(a[0], a[1..] + b, sent, store, encode);
      assert a == [a[0]] + a[1..];
      SendRowsCons(a[0], a[1..], sent, store, encode);
      AppendAssoc(first.effects, restA.effects, restB.effects);
    }
  }

  /** The loop after a row that completed carries on with the next rows. */
  lemma SendRowsCons(row: Row, rest: seq<Row>, sent: set<string>, store: map<string, Entry>, encode: Bytes -> string)
    requires SendRow(row, sent, store, encode).abort.None?
    ensures SendRows([row] + rest, sent, store, encode)
         == Output(SendRow(row, sent, store, encode).effects + SendRows(rest, sent, store, encode).effects,
                   SendRows(rest, sent, store, encode).abort)
  {
    assert ([row] + rest)[0] == row;
    assert ([row] + rest)[1..] == rest;
  }

  /** A row whose eligible image appears twice in one run is sent, and marked, twice. */
  lemma RepeatedRowIsResent(row: Row, sent: set<string>, store: map<string, Entry>, encode: Bytes -> string)
    requires |row| == 4 && Eligible(row[3], sent, store) && store[row[3]].Regular?
    ensures Marked(SendRows([row, row], sent, store, encode).effects) == [row[3], row[3]]
  {
    var one := SendRow(row, sent, store, encode);
    EligibleRowEffects(row, sent, store, encode);
    SentTwice(row, sent, store, encode);
    MarkedAppend(one.effects, one.effects);
  }

  lemma SentTwice(row: Row, sent: set<string>, store: map<string, Entry>, encode: Bytes -> string)
    requires SendRow(row, sent, store, encode).abort.None?
    ensures SendRows([row, row], sent, store, encode).effects
         == SendRow(row, sent, store, encode).effects + SendRow(row, sent, store, encode).effects
  {
    var one := SendRow(row, sent, store, encode);
    assert SendRows([row], sent, store, encode).effects == one.effects by {
      SendRowsCons(row, [], sent, store, encode);
      assert [row] + [] == [row];
      assert one.effects + [] == one.effects;
    }
    SendRowsCons(row, [row], sent, store, encode);
    assert [row] + [row] == [row, row];
  }

  /** No name already in the ledger snapshot is sent or marked again. */
  lemma {:induction false} LedgerNamesNotResent(rows: seq<Row>, sent: set<string>, store: map<string, Entry>, encode: Bytes -> string)
    ensures forall n :: n in Marked(SendRows(rows, sent, store, encode).effects) ==> n !in sent && n in store
    decreases |rows|
  {
    if |rows| > 0 {
      var first := SendRow(rows[0], sent, store, encode);
      RowMarksIffSent(rows[0], sent, store, encode);
      if first.abort.None? {
        LedgerNamesNotResent(rows[1..], sent, store, encode);
        FramesAppend(first.effects, SendRows(rows[1..], sent, store, encode).effects);
      }
    }
  }

  /** A run that was not cut short marked every row's eligible image. */
  lemma {:induction false} CompletedRunMarksEveryEligible(rows: seq<Row>, sent: set<string>, store: map<string, Entry>, encode: Bytes -> string)
    requires SendRows(rows, sent, store, encode).abort.None?
    ensures forall k :: 0 <= k < |rows| ==> |rows[k]| == 4
    ensures forall k :: 0 <= k < |rows| && Eligible(rows[k][3], sent, store) ==>
      store[rows[k][3]].Regular? && rows[k][3] in Marked(SendRows(rows, sent, store, encode).effects)
    decreases |rows|
  {
    if |rows| > 0 {
      var first := SendRow(rows[0], sent, store, encode);
      assert first.abort.None?;
      var rest := SendRows(rows[1..], sent, store, encode);
      assert rows == [rows[0]] + rows[1..];
      SendRowsCons(rows[0], rows[1..], sent, store, encode);
      var marked := Marked(SendRows(rows, sent, store, encode).effects);
      FramesAppend(first.effects, rest.effects);
      assert marked == Marked(first.effects) + Marked(rest.effects);
      RowMarksIffSent(rows[0], sent, store, encode);
      CompletedRunMarksEveryEligible(rows[1..], sent, store, encode);
      forall k | 0 <= k < |rows|
        ensures |rows[k]| == 4
      {
        if k > 0 {
          assert rows[k] == rows[1..][k - 1];
        }
      }
      forall k | 0 <= k < |rows| && Eligible(rows[k][3], sent, store)
        ensures store[rows[k][3]].Regular? && rows[k][3] in marked
      {
        if k > 0 {
          assert rows[k] == rows[1..][k - 1];
          assert rows[k][3] in Marked(rest.effects);
        }
      }
    }
  }

  /** With every image ineligible, a run sends the metadata frames and nothing else. */
  lemma {:induction false} MetadataOnlyRun(rows: seq<Row>, sent: set<string>, store: map<string, Entry>, encode: Bytes -> string)
    requires forall k :: 0 <= k < |rows| ==> |rows[k]| == 4 && !Eligible(rows[k][3], sent, store)
    ensures SendRows(rows, sent, store, encode).abort.None?
    ensures Frames(SendRows(rows, sent, store, encode).effects) == seq(|rows|, k requires 0 <= k < |rows| => MetadataFrame(rows[k]))
    ensures Marked(SendRows(rows, sent, store, encode).effects) == []
    decreases |rows|
  {
    if |rows| > 0 {
      var first := SendRow(rows[0], sent, store, encode);
      MetadataOnlyRun(rows[1..], sent, store, encode);
      FramesAppend(first.effects, SendRows(rows[1..], sent, store, encode).effects);
      MetadataFramesCons(rows);
    }
  }

  lemma MetadataFramesCons(rows: seq<Row>)
    requires |rows| > 0
    ensures seq(|rows|, k requires 0 <= k < |rows| => MetadataFrame(rows[k]))
         == [MetadataFrame(rows[0])] + seq(|rows| - 1, k requires 0 <= k < |rows| - 1 => MetadataFrame(rows[1..][k]))
  {
  }

  /** The table's header row is never sent, and an empty table sends nothing. */
  lemma HeaderIsNeverSent(header: Row, body: seq<Row>, ledger: Option<string>, store: map<string, Entry>, encode: Bytes -> string)
    ensures RunSender(Some([header] + body), ledger, store, encode).effects
         == SendRows(body, Ledger.Load(ledger), store, encode).effects
    ensures RunSender(Some([header]), ledger, store, encode) == Run([], None, ledger)
    ensures RunSender(None, ledger, store, encode) == Run([], None, ledger)
  {
    assert ([header] + body)[1..] == body;
    assert [header][1..] == [];
  }

  /** Running the sender a second time over the same table, image folder and the
      ledger the first run left behind sends no image again: when the first run
      completed, the second writes only the metadata frames and marks nothing. */
  lemma ReplaySendsOnlyMetadata(table: Option<seq<Row>>, ledger: Option<string>, store: map<string, Entry>, encode: Bytes -> string)
    requires Ledger.WellFormed(ledger)
    requires forall n :: n in store ==> Ledger.NoLineBreak(n)
    requires RunSender(table, ledger, store, encode).abort.None?
    ensures var first := RunSender(table, ledger, store, encode);
      var second := RunSender(table, first.ledger, store, encode);
      && second.abort.None?
      && Marked(second.effects) == []
      && second.ledger == first.ledger
      && (table.Some? ==> Frames(second.effects) == seq(|table.value| - 1, k requires 0 <= k < |table.value| - 1 => MetadataFrame(table.value[k + 1])))
  {
    var first := RunSender(table, ledger, store, encode);
    if table.Some? {
      var rows := table.value[1..];
      var sent := Ledger.Load(ledger);
      var marked := Marked(first.effects);
      CompletedRunMarksEveryEligible(rows, sent, store, encode);
      LedgerNamesNotResent(rows, sent, store, encode);
      Ledger.AppendAllThenLoad(ledger, marked);
      var sent2 := Ledger.Load(first.ledger);
      assert sent2 == sent + set n | n in marked;
      forall k | 0 <= k < |rows|
        ensures |rows[k]| == 4 && !Eligible(rows[k][3], sent2, store)
      {
        if Eligible(rows[k][3], sent, store) {
          assert rows[k][3] in marked;
        }
      }
      MetadataOnlyRun(rows, sent2, store, encode);
    }
  }

  /** The replay guarantee needs break-free names: an image whose name holds a
      line break is never read back from the ledger, so whatever a run wrote
      there, the next run sends that image and marks it again. */
  lemma BrokenNameIsResent(table: Option<seq<Row>>, ledger: Option<string>, store: map<string, Entry>, encode: Bytes -> string, row: Row)
    requires |row| == 4 && !Ledger.NoLineBreak(row[3]) && !IsNoneRef(row[3])
    requires row[3] in store && store[row[3]].Regular?
    ensures var next := Ledger.Load(RunSender(table, ledger, store, encode).ledger);
      && Eligible(row[3], next, store)
      && Marked(SendRow(row, next, store, encode).effects) == [row[3]]
  {
    var next := Ledger.Load(RunSender(table, ledger, store, encode).ledger);
    RowMarksIffSent(row, next, store, encode);
  }
  /** A run over a header and one complete row whose image, if stored, is a
      regular file: it completes, and marks the image exactly when it is
      eligible against the ledger. */
  lemma OneRowRun(header: Row, row: Row, ledger: Option<string>, store: map<string, Entry>, encode: Bytes -> string)
    requires |row| == 4 && (row[3] in store ==> store[row[3]].Regular?)
    ensures var r := RunSender(Some([header, row]), ledger, store, encode);
      && r.abort.None?
      && Marked(r.effects) == (if Eligible(row[3], Ledger.Load(ledger), store) then [row[3]] else [])
  {
    var sent := Ledger.Load(ledger);
    var one := SendRow(row, sent, store, encode);
    assert TableRows(Some([header, row])) == Success([row]);
    RowMarksIffSent(row, sent, store, encode);
    assert one.abort.None?;
    SendRowsCons(row, [], sent, store, encode);
    assert [row] + [] == [row];
    assert one.effects + [] == one.effects;
  }

  /** A ledger whose last line has no newline, such as one edited by hand,
      makes the next run's mark unreadable: an image sent and marked is sent
      and marked again by the run after. */
  lemma UnterminatedLedgerResends(header: Row, row: Row, line: string, store: map<string, Entry>, encode: Bytes -> string)
    requires |row| == 4 && !IsNoneRef(row[3]) && row[3] in store && store[row[3]].Regular?
    requires line != "" && line != row[3] && Ledger.NoLineBreak(line) && Ledger.NoLineBreak(row[3])
    ensures var first := RunSender(Some([header, row]), Some(line), store, encode);
      var second := RunSender(Some([header, row]), first.ledger, store, encode);
      && first.abort.None? && Marked(first.effects) == [row[3]]
      && second.abort.None? && Marked(second.effects) == [row[3]]
  {
    var first := RunSender(Some([header, row]), Some(line), store, encode);
    Ledger.UnterminatedLineMerges(line, row[3]);
    OneRowRun(header, row, Some(line), store, encode);
    assert first.ledger == Ledger.Append(Some(line), row[3]) by {
      assert [row[3]][1..] == [];
      assert Ledger.AppendAll(Some(line), [row[3]]) == Ledger.AppendAll(Ledger.Append(Some(line), row[3]), []);
    }
    OneRowRun(header, row, first.ledger, store, encode);
  }
}

=== FILE: text.dfy ===
/** The Python string operations both ends of the link rely on: whitespace
    stripping, prefix and suffix tests, comma joining, lower-casing, and the
    two-character frame terminator ".?" that delimits every frame on the wire. */
module Text {
  import opened Common

  /** Python's str.isspace(): exactly the characters str.strip() removes. */
  predicate IsSpace(c: char) {
    || c == ' '
    || '\t' <= c <= '\r'
    || '\U{1C}' <= c <= '\U{1F}'
    || c == '\U{85}' || c == '\U{A0}' || c == '\U{1680}'
    || '\U{2000}' <= c <= '\U{200A}'
    || c == '\U{2028}' || c == '\U{2029}' || c == '\U{202F}' || c == '\U{205F}' || c == '\U{3000}'
  }

  /** Python's str.lstrip(): the suffix left after dropping leading whitespace. */
  function TrimLeft(s: string): (r: string)
    ensures |r| <= |s| && r == s[|s| - |r|..]
    ensures forall k :: 0 <= k < |s| - |r| ==> IsSpace(s[k])
    ensures r == [] || !IsSpace(r[0])
    decreases |s|
  {
    if |s| > 0 && IsSpace(s[0]) then TrimLeft(s[1..]) else s
  }

  /** Python's str.rstrip(): the prefix left after dropping trailing whitespace. */
  function TrimRight(s: string): (r: string)
    ensures |r| <= |s| && r == s[..|r|]
    ensures forall k :: |r| <= k < |s| ==> IsSpace(s[k])
    ensures r == [] || !IsSpace(r[|r| - 1])
    decreases |s|
  {
    if |s| > 0 && IsSpace(s[|s| - 1]) then TrimRight(s[..|s| - 1]) else s
  }

  /** True when neither end of `s` is whitespace, i.e. str.strip() leaves it alone. */
  predicate Unpadded(s: string) {
    s == [] || (!IsSpace(s[0]) && !IsSpace(s[|s| - 1]))
  }

  /** Python's str.strip(). */
  function Strip(s: string): (r: string)
    ensures |r| <= |s|
    ensures Unpadded(r)
    ensures Unpadded(s) ==> r == s
  {
    TrimRight(TrimLeft(s))
  }

  /** Stripping a string that starts with a non-space prefix only trims its tail. */
  lemma StripAfterPrefix(p: string, s: string)
    requires |p| > 0 && !IsSpace(p[0]) && !IsSpace(p[|p| - 1])
    ensures Strip(p + s) == p + TrimRight(s)
  {
    assert TrimLeft(p + s) == p + s;
    TrimRightAfter(p, s);
  }

  /** Trailing whitespace is trimmed only from what follows a prefix that does
      not end in whitespace. */
  lemma {:induction false} TrimRightAfter(p: string, s: string)
    requires |p| > 0 && !IsSpace(p[|p| - 1])
    ensures TrimRight(p + s) == p + TrimRight(s)
    decreases |s|
  {
    if |s| == 0 {
      assert p + s == p;
    } else if IsSpace(s[|s| - 1]) {
      var t := s[..|s| - 1];
      assert (p + s)[..|p + s| - 1] == p + t;
      TrimRightAfter(p, t);
    } else {
      assert (p + s)[|p + s| - 1] == s[|s| - 1];
    }
  }

  predicate StartsWith(s: string, prefix: string) {
    |prefix| <= |s| && s[..|prefix|] == prefix
  }

  predicate EndsWith(s: string, suffix: string) {
    |suffix| <= |s| && s[|s| - |suffix|..] == suffix
  }

  /** Python's sep.join(parts). */
  function Join(parts: seq<string>, sep: string): string
    decreases |parts|
  {
    if |parts| == 0 then ""
    else if |parts| == 1 then parts[0]
    else parts[0] + sep + Join(parts[1..], sep)
  }

  /** Python's "".join(parts). */
  function Concat(parts: seq<string>): string
    decreases |parts|
  {
    if |parts| == 0 then "" else parts[0] + Concat(parts[1..])
  }

  lemma {:induction false} ConcatAppend(a: seq<string>, b: seq<string>)
    ensures Concat(a + b) == Concat(a) + Concat(b)
    decreases |a|
  {
    if |a| > 0 {
      assert (a + b)[1..] == a[1..] + b;
      ConcatAppend(a[1..], b);
    } else {
      assert a + b == b;
    }
  }

  /** Python's str.lower() on the ASCII letters; every other character is kept. */
  function Lower(s: string): (r: string)
    ensures |r| == |s|
    ensures forall i :: 0 <= i < |s| && !('A' <= s[i] <= 'Z') ==> r[i] == s[i]
    ensures forall i :: 0 <= i < |s| && 'A' <= s[i] <= 'Z' ==> r[i] as int == s[i] as int + 32
  {
    seq(|s|, i requires 0 <= i < |s| => if 'A' <= s[i] <= 'Z' then (s[i] as int + 32) as char else s[i])
  }

  /** The frame terminator both programs use. */
  const Sentinel: string := ".?"

  /** The payload that announces an image; its file name is the next frame. */
  const ImageToken: string := "image_name"

  /** The prefix that marks a metadata row. */
  const CsvPrefix: string := "csv,"

  /** The terminator starts at index `i` of `s`. */
  predicate SentinelAt(s: string, i: int) {
    0 <= i && i + 1 < |s| && s[i] == '.' && s[i + 1] == '?'
  }

  /** Python's `'.?' in s`. */
  predicate ContainsSentinel(s: string) {
    exists i :: 0 <= i < |s| && SentinelAt(s, i)
  }

  /** The first index at or after `from` where the terminator starts. */
  function FindSentinel(s: string, from: nat): (r: Option<nat>)
    requires from <= |s|
    ensures r.Some? ==> from <= r.value && SentinelAt(s, r.value)
    ensures r.Some? ==> forall j :: from <= j < r.value ==> !SentinelAt(s, j)
    ensures r.None? ==> forall j :: from <= j ==> !SentinelAt(s, j)
    decreases |s| - from
  {
    if from + 1 >= |s| then None
    else if s[from] == '.' && s[from + 1] == '?' then Some(from)
    else FindSentinel(s, from + 1)
  }

  /** Python's `s.split('.?', 1)` guarded by `'.?' in s`: the text before the
      first terminator and everything after it, or None when there is none. */
  function SplitFrame(s: string): (r: Option<(string, string)>)
    ensures r.None? <==> !ContainsSentinel(s)
    ensures r.Some? ==> s == r.value.0 + Sentinel + r.value.1
    ensures r.Some? ==> !ContainsSentinel(r.value.0)
  {
    match FindSentinel(s, 0)
    case None => None
    case Some(i) =>
      assert s == s[..i] + Sentinel + s[i + 2..];
      assert forall j :: SentinelAt(s[..i], j) ==> SentinelAt(s, j);
      Some((s[..i], s[i + 2..]))
  }

  /** A frame body free of the terminator, followed by the terminator, is
      split back at exactly that terminator. */
  lemma SplitFrameOfFrame(a: string, b: string)
    requires !ContainsSentinel(a)
    ensures SplitFrame(a + Sentinel + b) == Some((a, b))
  {
    var s := a + Sentinel + b;
    assert SentinelAt(s, |a|);
    forall j | 0 <= j < |a|
      ensures !SentinelAt(s, j)
    {
      if j + 1 < |a| {
        assert !SentinelAt(a, j);
      }
    }
    assert s[..|a|] == a;
    assert s[|a| + 2..] == b;
  }

  /** A terminator in a concatenation lies in one part or straddles the seam. */
  lemma SentinelInConcat(a: string, b: string)
    requires !ContainsSentinel(a) && !ContainsSentinel(b)
    requires a == [] || b == [] || a[|a| - 1] != '.' || b[0] != '?'
    ensures !ContainsSentinel(a + b)
  {
    var s := a + b;
    forall j | 0 <= j < |s|
      ensures !SentinelAt(s, j)
    {
      if j + 1 < |a| {
        assert !SentinelAt(a, j);
      } else if j >= |a| {
        assert !SentinelAt(b, j - |a|);
      }
    }
  }

  /** RFC 4648 section 4: the Base64 alphabet and its padding character. */
  predicate IsBase64Char(c: char) {
    'A' <= c <= 'Z' || 'a' <= c <= 'z' || '0' <= c <= '9' || c == '+' || c == '/' || c == '='
  }

  predicate IsBase64Text(s: string) {
    forall i :: 0 <= i < |s| ==> IsBase64Char(s[i])
  }

  /** Base64 text never contains the frame terminator. */
  lemma Base64HasNoSentinel(s: string)
    requires IsBase64Text(s)
    ensures !ContainsSentinel(s)
  {
    forall j | 0 <= j < |s|
      ensures !SentinelAt(s, j)
    {
      assert IsBase64Char(s[j]);
    }
  }
}
